=== FILE: README.md ===
# Leave management app — a Dafny model of its state and screen logic

This project models the part of the Leave Management mobile app (React Native,
Redux Toolkit, AsyncStorage) that decides what happens to data:

- the four Redux slices — registered users, the session, the leave summary and
  the recent leave requests — and the root reducer that combines them
  (`UsersSlice`, `SessionSlice`, `LeaveSummarySlice`, `RecentRequestsSlice`,
  `Store`);
- the selector hooks (`Hooks`);
- the persistence hook that rehydrates the store from device storage at start-up
  and writes every slice back on each change (`Persistence`), including how each
  slice looks after `JSON.stringify` / `JSON.parse` (`Codec`);
- the screen handlers: login (`Login`), signup (`Signup`), the dashboard's
  add/edit modal, approval, reset and counters (`Dashboard`), the root layout's
  route guard and logout (`Layout`), and the profile screen, which bypasses the
  store and edits stored JSON directly (`Profile`).

Everything is a pure function over immutable datatypes. A reducer is a total
function `(state, action) -> state`. A dispatch sequence is folded by
`Store.DispatchAll`. A screen handler returns an `Ui.Outcome`: the alert it
shows, the actions it dispatches in order, and the route it navigates to.
Device storage is a map from key to parsed JSON value (`Js.Value`). Object
spread `{...a, ...b}` is map union in which the right operand wins. The clock
(`Date.now()`) is the parameter `now` of `Dashboard.Submit`.

Helper modules: `Wrappers` (`Option`) and `Seqs`. `Seqs` models `findIndex`,
`find` and `filter`, plus counting, with their own lemmas. `Js` holds
JavaScript values, truthiness, property reads, `===` and spread.

Observations the proofs make explicit:

- The session's top-level `email`, `avatar`, `name`, `phone` and `address` are
  never written by any reducer (`SessionSlice.ReachableInvariant`). So the
  session the persistence hook stores always has `email: ""`.
- The profile screen loads its form from that stored session. It never edits
  the email, so a save keeps the email blank and matches no stored user with a
  real email. Users are never updated from the profile screen
  (`Profile.SaveNeverReachesUsers`).
- Signup signs the new user in and then navigates to `/login`. The route guard
  then redirects an authenticated user to `/dashboard`
  (`Layout.SignupLandsOnDashboard`).
- The dashboard's counters are recomputed from the request list, and the
  leave-summary slice is not what they display. `setLeaveSummary` accepts an
  unbalanced record (`LeaveSummarySlice.SetCanUnbalance`).
- Request ids are not checked for uniqueness, and `updateRecentRequest`
  rewrites the first request with the given id. With duplicate ids, editing or
  approving a later row changes the earlier one and leaves the later row as it
  was (`RecentRequestsSlice.DuplicateIdUpdatesFirst`). An add whose form id is
  0 takes `Date.now()` as its id, and nothing stops it from colliding.
- `addUser` does not check email uniqueness (`UsersSlice.AddDuplicateEmail`).
  Only the signup screen enforces it (`Signup.SignupKeepsEmailsDistinct`).

## Model

| member | source | states |
|---|---|---|
| UsersSlice.Add | features/users/users.slice.ts:21-23 | `addUser` appends the user at the end and keeps every earlier entry in place |
| UsersSlice.Update | features/users/users.slice.ts:24-27 | `updateUser` keeps the length; with no entry under the email the list is unchanged, otherwise exactly the first such entry is replaced |
| UsersSlice.Remove | features/users/users.slice.ts:28-30 | `removeUser` keeps only entries whose email differs, keeps every such entry, and its length plus the number of entries under the email is the old length |
| UsersSlice.RemoveSingleton | features/users/users.slice.ts:28-30 | on a one-entry list removal keeps the entry iff its email differs; with RemoveKeepsOrder this fixes the result on every list, duplicates and order included |
| UsersSlice.Reduce | features/users/users.slice.ts:18-30 | `setUsers` replaces the list wholesale; add grows it by one at the end; update leaves the list unchanged when no entry has the email and otherwise replaces exactly the first match; remove keeps every entry under another email, drops every entry under the email, and shrinks by their number |
| UsersSlice.AddDuplicateEmail | features/users/users.slice.ts:21-23 | adding a user whose email is already registered makes one more entry under that email (no uniqueness check) |
| UsersSlice.UpdateThenRead | features/users/users.slice.ts:24-27 | on a list with distinct emails, update writes the matching position and leaves every other position alone |
| UsersSlice.RemoveIdempotent | features/users/users.slice.ts:28-30 | after removal no entry has the email, and removing it again changes nothing |
| UsersSlice.RemoveKeepsOrder | features/users/users.slice.ts:28-30 | removal distributes over concatenation, so the survivors keep their relative order |
| SessionSlice.Reduce | features/session/session.slice.ts:28-35 | `signin` installs the user and sets the flag, `signout` clears both; the flag is set iff the action is a signin; the top-level profile fields never move |
| SessionSlice.ReachableInvariant | features/session/session.slice.ts:14-35 | from the initial state, every run of actions keeps the flag equal to "a user is present" and the top-level profile fields at their initial values |
| SessionSlice.InitialIsConsistent | features/session/session.slice.ts:14-22 | the initial session has no user, is not authenticated, and satisfies the invariant |
| SessionSlice.SignoutIdempotent | features/session/session.slice.ts:32-35 | signing out twice is signing out once |
| SessionSlice.SigninLastWins | features/session/session.slice.ts:28-31 | of two successive sign-ins only the second user remains |
| LeaveSummarySlice.Reduce | features/leaveSummary/leaveSummary.slice.ts:19-24 | `setLeaveSummary` stores the payload as given; `resetLeaveSummary` yields 30 total, 12 taken, 18 remaining whatever the prior state |
| LeaveSummarySlice.ResetIdempotent | features/leaveSummary/leaveSummary.slice.ts:9-24 | reset is idempotent and forgets an earlier set |
| LeaveSummarySlice.SetCanUnbalance | features/leaveSummary/leaveSummary.slice.ts:9-21 | the default satisfies total = taken + remaining, but set accepts a record that does not |
| RecentRequestsSlice.Add | features/recentRequests/recentRequests.slice.ts:19-21 | `addRecentRequest` puts the request first and shifts the old list behind it unchanged |
| RecentRequestsSlice.Update | features/recentRequests/recentRequests.slice.ts:25-30 | `updateRecentRequest` keeps the length; with no request under the id the list is unchanged, otherwise exactly the first one with that id is replaced |
| RecentRequestsSlice.Reduce | features/recentRequests/recentRequests.slice.ts:16-30 | `setRecentRequests` replaces the list wholesale; add puts the request in front of the old list; reset gives the empty list; update leaves the list unchanged for an unknown id and otherwise replaces exactly the first request with that id |
| RecentRequestsSlice.AddOrder | features/recentRequests/recentRequests.slice.ts:19-21 | adding a then b gives b, a, then the older requests (newest first) |
| RecentRequestsSlice.DuplicateIdUpdatesFirst | features/recentRequests/recentRequests.slice.ts:25-30 | with two requests sharing an id, an update carrying that id rewrites the first and leaves the second as it was |
| RecentRequestsSlice.ResetIdempotent | features/recentRequests/recentRequests.slice.ts:22-24 | reset empties the list from any state and is idempotent |
| Store.RootReduce | store/store.ts:35-41 | the owning slice takes its own reducer's result and the other three slices are unchanged |
| Store.DispatchAll | store/store.ts:52-61 | a run of dispatches leaves unchanged every slice that none of its actions belongs to |
| Store.DispatchOne | store/store.ts:52-61 | dispatching a single action is applying the root reducer once |
| Store.DispatchTwo | store/store.ts:52-61 | dispatching two actions applies the root reducer to each in call order |
| Store.DispatchAppend | store/store.ts:52-61 | dispatching one run of actions and then another equals dispatching their concatenation |
| Store.DispatchKeepsSessionInvariant | store/store.ts:35-61 | any run of dispatches keeps the session consistent and its top-level profile fields blank |
| Store.DispatchPreservesUsers | store/store.ts:35-41 | a run with no users action leaves the user list unchanged |
| Hooks.SignoutSelectors | store/hooks.ts:8-15 | after signout, `useCurrentUser` gives null, `useIsAuthenticated` false, and the users list is unchanged |
| Hooks.SelectorsFollowDispatch | store/hooks.ts:8-15 | `useUsersList`, `useLeaveSummary`, `useRecentRequests` and `useSessionState` each return their slice as the store holds it, so after a dispatch each takes its slice reducer's result for an action of its slice and is unchanged otherwise; `useCurrentUser` and `useIsAuthenticated` read the session's user and flag |
| Hooks.FlagAgreesWithUser | store/hooks.ts:9-15 | on every reachable state, `useIsAuthenticated` is true iff `useCurrentUser` returns a user |
| Hooks.FlagIsReadDirectly | store/hooks.ts:15 | the flag selector reads the stored flag and does not recompute it from the user |
| Hooks.AddUserSelector | store/hooks.ts:8 | after `addUser`, the users selector returns the old list with the user appended |
| Codec.SlotRoundTrip | utils/useAsyncStorage.ts:17-20 | an optional field survives stringify/parse: undefined drops the property, null and strings come back as they were |
| Codec.UserRoundTrip | utils/useAsyncStorage.ts:6-24 | a user written as JSON and read back is the same user, optional fields included |
| Codec.SummaryRoundTrip | utils/useAsyncStorage.ts:6-24 | a leave summary survives being written and read back |
| Codec.RequestRoundTrip | utils/useAsyncStorage.ts:6-24 | a leave request survives being written and read back |
| Codec.ArrayRoundTrip | utils/useAsyncStorage.ts:6-24 | an array of values that each round-trip round-trips as a whole, in order |
| Codec.UsersRoundTrip | utils/useAsyncStorage.ts:6-24 | the stored user list reads back as the same list |
| Codec.RequestsRoundTrip | utils/useAsyncStorage.ts:6-24 | the stored request list reads back as the same list |
| Persistence.SessionLoad | utils/useReduxPersistence.ts:28-31 | a stored session dispatches one signin iff it is truthy and its `user` is present, truthy and reads back as a user, and the signin carries that stored user |
| Persistence.SessionUser | utils/useReduxPersistence.ts:28-30 | the user a stored session brings back is present iff the session is truthy and its `user` is present, truthy and reads back as a user, and it is that user |
| Persistence.SliceLoad | utils/useReduxPersistence.ts:34-49 | a slice key dispatches its set action iff the stored value is truthy and reads as the slice's shape, and then with that value |
| Persistence.LoadActions | utils/useReduxPersistence.ts:24-53 | start-up dispatches at most four actions, one per slice, in the order session, users, summary, requests |
| Persistence.LoadEffects | utils/useReduxPersistence.ts:24-53 | running the session, users, summary and requests load steps one after another gives the slice-by-slice result `Rehydrated` |
| Persistence.Load | utils/useReduxPersistence.ts:24-53 | after loading, each slice holds what its key stores when that reads back as the slice's shape and is unchanged otherwise; the session is signed in with the stored session's user exactly when that user is present, truthy and reads back as a user |
| Persistence.LoadEmpty | utils/useReduxPersistence.ts:24-53 | with nothing stored, loading leaves the store as it was |
| Persistence.SaveWrites | utils/useReduxPersistence.ts:59-68 | saving issues four writes, to the session, users, summary and requests keys in that order |
| Persistence.Save | utils/useReduxPersistence.ts:59-68 | after saving, each slice key holds that slice's JSON and every other key is kept |
| Codec.EncodeSession | utils/useReduxPersistence.ts:61 | the stored session is a truthy object whose `email`, `phone`, `address`, `user` and `isAuthenticated` properties are the session's, whose `avatar` and `name` read back as the session's (absent when undefined), and which has no `password` property |
| Persistence.SaveLoadRoundTrip | utils/useReduxPersistence.ts:24-72 | loading what was saved into a fresh store restores users, summary and requests exactly, and signs the saved user back in |
| Persistence.ReachableRoundTrip | utils/useReduxPersistence.ts:24-72 | for every state reachable by dispatching, save followed by load into a fresh store gives back exactly that state |
| Login.HandleLogin | app/login.tsx:18-34 | an empty field alerts "Please fill in all fields"; otherwise a signin is dispatched iff some user has both credentials, and it signs in the first such user and navigates to /dashboard; when none matches it alerts "Invalid credentials" |
| Login.LoginOnlyTouchesSession | app/login.tsx:23-30 | a login attempt never changes the users, the summary or the requests |
| Login.FailedLoginChangesNothing | app/login.tsx:19-30 | with no matching user the store is unchanged and an alert is shown |
| Login.SuccessfulLogin | app/login.tsx:24-27 | a matching user ends up signed in and authenticated |
| Signup.HandleSignup | app/signup.tsx:17-35 | an empty field alerts "Please fill all fields"; a registered email alerts the duplicate message; otherwise it adds then signs in the new user, alerts success and navigates to /login |
| Signup.SignupSuccess | app/signup.tsx:27-29 | a successful signup appends exactly the new user and signs that user in |
| Signup.SignupRejectedChangesNothing | app/signup.tsx:18-26 | a rejected signup leaves the store unchanged |
| Signup.SignupKeepsEmailsDistinct | app/signup.tsx:17-35 | whatever the outcome, a user list with distinct emails keeps them distinct |
| Signup.SignupTwice | app/signup.tsx:17-35 | signing up twice with one email is refused the second time, and the list keeps a single entry |
| Dashboard.TrimEmptyIff | app/dashboard.tsx:46 | `trim()` yields the empty string iff every character is ECMAScript white space |
| Dashboard.Validate | app/dashboard.tsx:43-49 | a date error iff the date is empty, a type error iff the type is blank, each with its message |
| Dashboard.OpenAdd | app/dashboard.tsx:21-25 | opening for add shows the modal in add mode with a blank form and keeps the recorded errors |
| Dashboard.OpenEdit | app/dashboard.tsx:27-31 | opening for edit shows the modal in edit mode with the row's id, date and type and keeps the recorded errors |
| Dashboard.Close | app/dashboard.tsx:33-37 | closing hides the modal, leaves edit mode and blanks the form, keeping the recorded errors |
| Dashboard.CloseForgetsForm | app/dashboard.tsx:21-37 | closing after opening in either mode is the same as closing directly |
| Dashboard.BlankAddFormIsRefused | app/dashboard.tsx:21-25 | submitting a freshly opened add form dispatches nothing, keeps the modal open and records both errors |
| Dashboard.Submit | app/dashboard.tsx:62-73 | invalid: only the errors change and nothing is dispatched; add: one pending request with the form's id or `now` when that is 0; edit: one update carrying the form and the status of the first request with that id, or "Pending" when there is none; the modal closes |
| Dashboard.Approve | app/dashboard.tsx:75-77 | approval sends an update of the same row with status "Approved" and every other field kept |
| Dashboard.CountersBounded | app/dashboard.tsx:85-88 | taken plus remaining never exceeds the total (`Total`, the length of the request list) |
| Dashboard.Taken | app/dashboard.tsx:87 | the taken count is the length of the list of requests whose status is "Approved" |
| Dashboard.Remaining | app/dashboard.tsx:88 | the remaining count is the length of the list of requests whose status is "Pending" |
| Dashboard.ApproveMovesCounters | app/dashboard.tsx:75-88 | approving a pending row that is the first row with its id moves one request from remaining to taken, keeps the total, and removes the Approve button |
| Dashboard.EditUnchangedIsNoOp | app/dashboard.tsx:27-73 | opening a valid row that is the first row with its id for edit and submitting it unchanged leaves the request list as it was and closes the modal |
| Dashboard.DeleteAllDataResets | app/dashboard.tsx:80-83 | reset restores the default summary, empties the requests so every counter reads 0, and leaves users and session alone |
| Layout.Guard | app/_layout.tsx:71-115 | loading iff the session is undefined; a signed-out user sees the public stack iff on login/signup and is otherwise sent to /login; a signed-in user sees the app stack iff on dashboard/profile and is otherwise sent to /dashboard |
| Layout.GuardSettles | app/_layout.tsx:78-98 | following a redirect lands on a route the guard accepts, so it never redirects twice; the guard reads the route through `CurrentPath` (line 47), the last segment of the redirect target |
| Layout.LogoutShowsLogin | app/_layout.tsx:49-52 | from any state, dispatching the actions of `HandleLogout` and following its navigation shows the login screen without a redirect, and the users are unchanged |
| Layout.SignupLandsOnDashboard | app/signup.tsx:28-31 | after a successful signup the navigation to /login is redirected to /dashboard, because the new user is already signed in |
| Profile.InitProfile | app/profile.tsx:27-38 | with a truthy stored session the form has exactly the default keys plus the session's own properties, takes every own property's value and the default for the rest; for an object the own properties are its properties, and a truthy string or array adds its index-named properties; with no, a falsy, a boolean or a number session it is the defaults |
| Profile.StringSessionAddsIndices | app/profile.tsx:27-38 | a truthy string session such as "ab" puts an index property "0" into the form, so the form is not the defaults |
| Profile.ApplyEdit | app/profile.tsx:103-121 | an edit sets its own field (name, phone, address or avatar) and leaves every other field as it was |
| Profile.EditsKeepEmail | app/profile.tsx:103-121 | no sequence of edits changes the email, whose input is read-only |
| Profile.FindByEmail | app/profile.tsx:48 | `findIndex` returns the first entry whose email is strictly equal, having passed only non-null, non-matching entries; it throws only when a null entry comes before any match |
| Profile.Merge | app/profile.tsx:50 | `{...users[idx], ...profile}` is an object with the keys of both, the profile's value on every profile key and the old entry's value on every other key |
| Profile.HandleSave | app/profile.tsx:40-54 | saving always writes the form as the session, leaves every key but session and users alone, and adds no other key; it throws exactly when the stored user list is truthy but not an array, or the email scan reaches a `null` entry before any match |
| Profile.SaveMerges | app/profile.tsx:47-52 | when a stored user matches, that entry takes the form's fields and keeps its other properties (the password), and the rest of the list is unchanged |
| Profile.SaveWithoutMatchKeepsUsers | app/profile.tsx:47-52 | without a matching stored user the users key is left exactly as it was |
| Profile.ProfileLogout | app/profile.tsx:56-60 | the profile screen's logout deletes the stored session, keeps every other key with its value, and adds no key |
| Profile.HookSaveKeepsEmailBlank | utils/useReduxPersistence.ts:59-64 | the session the persistence hook stores from a reachable store makes the profile load an empty email |
| Profile.ProfileSaveKeepsEmailBlank | app/profile.tsx:27-54 | saving a form loaded with an empty email, after any edits, stores a session that loads an empty email again |
| Profile.ProfileLogoutKeepsEmailBlank | app/profile.tsx:56-60 | after the profile logout the form loads the defaults, so the email is empty |
| Profile.SaveNeverReachesUsers | app/profile.tsx:40-54 | while the loaded email is empty, a save over a list of non-null users with non-empty emails completes and leaves the stored users unchanged |
| Profile.StoreUsersHaveNonBlankEmails | utils/useReduxPersistence.ts:62 | when every user has a non-empty email, the list the hook stores has only non-null entries, none with an empty email property, so those users satisfy the premise of SaveNeverReachesUsers |

## Left out

- JSON text and the storage API: storage holds parsed values. A failed read
  and unparsable text both make `getData` return null, so they are modelled
  as an absent key. Write and delete failures, which are logged and swallowed,
  are not modelled: a write always succeeds.
- `utils/storageKeys.ts` is not part of this model. The four keys are taken to
  be the distinct strings "session", "users", "leaveSummary" and
  "recentRequests"; only their distinctness matters.
- Concurrency: the persistence hook's saves are asynchronous and may
  interleave. The model performs each save as one step after the state change
  that triggered it. Races between the profile screen's writes and the hook's
  writes are not modelled.
- Persistence.SliceLoad: a stored users, summary or requests value that is
  truthy but does not read back as the slice's shape dispatches nothing in the
  model. The app dispatches any truthy value as it is and puts it into the
  state unchecked, which typed slices cannot hold. Decoding also drops extra
  properties of a stored user, leave summary or request.
- Persistence.SessionLoad: likewise, a truthy stored `user` that does not read
  back as a user record dispatches nothing; the app would sign it in as it is.
- Persistence.Load: inherits both gaps above, so it leaves a slice unchanged
  where the app would store an ill-shaped value; `Persistence.LoadEffects` and
  `Persistence.Rehydrated` state the same gap.
- The outer `catch` of `loadPersistedData` is not modelled. Every read catches
  its own errors and every reducer is total, so it cannot fire. The `catch`
  branches of `handleLogin` and `handleSignup` are left out for the same
  reason: with a typed user list, property reads cannot throw.
- Numbers are integers; NaN, fractions and floating-point formatting are left
  out. `Date.now()` is the parameter `now`.
- Rendering, styles, the custom alert component, `showAlert` and the loading
  indicators are left out; alerts are values in `Ui.Outcome`. The profile
  screen's `alert('Logged out!')` is not represented.
- The camera permission request and `handlePickImage` are reduced to the
  `SetAvatar` edit with the URI as input. The date picker `handleDateChange`
  and the free-form `handleChange` are not modelled: the form is taken as
  given at submit.
- The header's `UserMenu` with its non-null assertions on the current user is
  left out; the guard only shows it to authenticated users.
- The commented-out redux-persist configuration and the unused
  `customStorage` engine in the store module are not modelled.
- Layout.GuardSettles: `SegmentsOf` handles only the app's one-level routes
  ("/login", "/dashboard"), which are the only ones the guard redirects to.
- The profile screen's `useEffect` dependencies, the `editing` toggle and the
  `setProfile(prev => ({...prev}))` copy do not affect the stored data and
  are left out.

=== FILE: codec.dfy ===
/**
  How each slice looks once `JSON.stringify` has written it and `JSON.parse`
  has read it back, and how a parsed value is read back into a slice.
  An `undefined` property is dropped by `JSON.stringify`; `null` survives.
  Decoding accepts exactly the shapes the slice types describe and ignores
  extra properties.
 */
module Codec {
  import opened Wrappers
  import opened Js
  import opened UsersSlice
  import opened SessionSlice
  import opened LeaveSummarySlice
  import opened RecentRequestsSlice

  /** The property for an optional string field, or no property when it is undefined. */
  function SlotProp(key: string, x: Slot<string>): (r: map<string, Value>)
    ensures r.Keys <= {key}
  {
    match x
    case Undefined => map[]
    case Null => map[key := VNull]
    case Defined(v) => map[key := VStr(v)]
  }

  /** Reads an optional string field back; a value of another kind does not decode. */
  function ReadSlot(m: map<string, Value>, key: string): Option<Slot<string>>
  {
    if key !in m then Some(Undefined)
    else match m[key]
      case VNull => Some(Null)
      case VStr(v) => Some(Defined(v))
      case _ => None
  }

  function ReadString(m: map<string, Value>, key: string): Option<string>
  {
    if key in m && m[key].VStr? then Some(m[key].s) else None
  }

  function ReadNumber(m: map<string, Value>, key: string): Option<int>
  {
    if key in m && m[key].VNum? then Some(m[key].n) else None
  }

  lemma SlotRoundTrip(m: map<string, Value>, key: string, x: Slot<string>)
    ensures ReadSlot(m + SlotProp(key, x), key) == (if x.Undefined? then ReadSlot(m, key) else Some(x))
  {
  }

  function EncodeUser(u: User): (v: Value)
    ensures v.VObj? && Truthy(v)
    ensures Member(v, "email") == Some(VStr(u.email))
    ensures Member(v, "password") == Some(VStr(u.password))
  {
    VObj(map["name" := VStr(u.name), "email" := VStr(u.email), "password" := VStr(u.password)]
      + SlotProp("avatar", u.avatar) + SlotProp("phone", u.phone) + SlotProp("address", u.address))
  }

  function DecodeUser(v: Value): Option<User>
  {
    if !v.VObj? then None
    else
      var m := v.props;
      var name := ReadString(m, "name");
      var email := ReadString(m, "email");
      var password := ReadString(m, "password");
      var avatar := ReadSlot(m, "avatar");
      var phone := ReadSlot(m, "phone");
      var address := ReadSlot(m, "address");
      if name.Some? && email.Some? && password.Some? && avatar.Some? && phone.Some? && address.Some?
      then Some(User(name.value, email.value, password.value, avatar.value, phone.value, address.value))
      else None
  }

  /** A stored user reads back as exactly the user that was written. */
  lemma UserRoundTrip(u: User)
    ensures DecodeUser(EncodeUser(u)) == Some(u)
  {
    var base := map["name" := VStr(u.name), "email" := VStr(u.email), "password" := VStr(u.password)];
    var m1 := base + SlotProp("avatar", u.avatar);
    var m2 := m1 + SlotProp("phone", u.phone);
    var m := m2 + SlotProp("address", u.address);
    assert EncodeUser(u).props == m;
    assert ReadString(m, "name") == Some(u.name);
    assert ReadString(m, "email") == Some(u.email);
    assert ReadString(m, "password") == Some(u.password);
    SlotRoundTrip(base, "avatar", u.avatar);
    SlotRoundTrip(m1, "phone", u.phone);
    SlotRoundTrip(m2, "address", u.address);
    assert ReadSlot(m, "avatar") == ReadSlot(m1, "avatar");
    assert ReadSlot(m, "phone") == ReadSlot(m2, "phone");
  }

  function EncodeSummary(x: Summary): (v: Value)
    ensures v.VObj? && Truthy(v)
  {
    VObj(map["total" := VNum(x.total), "taken" := VNum(x.taken), "remaining" := VNum(x.remaining)])
  }

  function DecodeSummary(v: Value): Option<Summary>
  {
    if !v.VObj? then None
    else
      var total := ReadNumber(v.props, "total");
      var taken := ReadNumber(v.props, "taken");
      var remaining := ReadNumber(v.props, "remaining");
      if total.Some? && taken.Some? && remaining.Some?
      then Some(Summary(total.value, taken.value, remaining.value))
      else None
  }

  lemma SummaryRoundTrip(x: Summary)
    ensures DecodeSummary(EncodeSummary(x)) == Some(x)
  {
  }

  function EncodeRequest(r: RecentRequest): (v: Value)
    ensures v.VObj? && Truthy(v)
  {
    VObj(map["id" := VNum(r.id), "date" := VStr(r.date), "type" := VStr(r.leaveType), "status" := VStr(r.status)])
  }

  function DecodeRequest(v: Value): Option<RecentRequest>
  {
    if !v.VObj? then None
    else
      var id := ReadNumber(v.props, "id");
      var date := ReadString(v.props, "date");
      var leaveType := ReadString(v.props, "type");
      var status := ReadString(v.props, "status");
      if id.Some? && date.Some? && leaveType.Some? && status.Some?
      then Some(RecentRequest(id.value, date.value, leaveType.value, status.value))
      else None
  }

  lemma RequestRoundTrip(r: RecentRequest)
    ensures DecodeRequest(EncodeRequest(r)) == Some(r)
  {
  }

  /** An array written element by element. */
  function EncodeArray<T>(xs: seq<T>, enc: T -> Value): (v: Value)
    ensures v.VArr? && |v.items| == |xs| && Truthy(v)
    ensures forall i :: 0 <= i < |xs| ==> v.items[i] == enc(xs[i])
  {
    VArr(seq(|xs|, i requires 0 <= i < |xs| => enc(xs[i])))
  }

  /** Reads every element of an array; one unreadable element makes the whole array unreadable. */
  function DecodeItems<T>(items: seq<Value>, dec: Value -> Option<T>): (r: Option<seq<T>>)
    ensures r.Some? ==> |r.value| == |items|
  {
    if |items| == 0 then Some([])
    else match (dec(items[0]), DecodeItems(items[1..], dec))
      case (Some(x), Some(rest)) => Some([x] + rest)
      case _ => None
  }

  function DecodeArray<T>(v: Value, dec: Value -> Option<T>): Option<seq<T>>
  {
    if v.VArr? then DecodeItems(v.items, dec) else None
  }

  /** Element-wise round trips make the array round trip. */
  lemma {:induction false} ArrayRoundTrip<T>(xs: seq<T>, enc: T -> Value, dec: Value -> Option<T>)
    requires forall i :: 0 <= i < |xs| ==> dec(enc(xs[i])) == Some(xs[i])
    ensures DecodeArray(EncodeArray(xs, enc), dec) == Some(xs)
  {
    if |xs| > 0 {
      ArrayRoundTrip(xs[1..], enc, dec);
      assert EncodeArray(xs, enc).items[1..] == EncodeArray(xs[1..], enc).items;
      assert [xs[0]] + xs[1..] == xs;
    }
  }

  function EncodeUsers(us: seq<User>): Value { EncodeArray(us, EncodeUser) }

  function DecodeUsers(v: Value): Option<seq<User>> { DecodeArray(v, DecodeUser) }

  function EncodeRequests(rs: seq<RecentRequest>): Value { EncodeArray(rs, EncodeRequest) }

  function DecodeRequests(v: Value): Option<seq<RecentRequest>> { DecodeArray(v, DecodeRequest) }

  lemma UsersRoundTrip(us: seq<User>)
    ensures DecodeUsers(EncodeUsers(us)) == Some(us)
  {
    forall i | 0 <= i < |us|
      ensures DecodeUser(EncodeUser(us[i])) == Some(us[i])
    {
      UserRoundTrip(us[i]);
    }
    ArrayRoundTrip(us, EncodeUser, DecodeUser);
  }

  lemma RequestsRoundTrip(rs: seq<RecentRequest>)
    ensures DecodeRequests(EncodeRequests(rs)) == Some(rs)
  {
    forall i | 0 <= i < |rs|
      ensures DecodeRequest(EncodeRequest(rs[i])) == Some(rs[i])
    {
      RequestRoundTrip(rs[i]);
    }
    ArrayRoundTrip(rs, EncodeRequest, DecodeRequest);
  }

  /**
    Adding the `avatar` and `name` slots to properties that have neither keeps
    every property there was and reads both slots back.
   */
  lemma TwoSlots(m: map<string, Value>, avatar: Slot<string>, name: Slot<string>)
    requires "avatar" !in m && "name" !in m
    ensures var r := m + SlotProp("avatar", avatar) + SlotProp("name", name);
      && (forall k :: k in m ==> k in r && r[k] == m[k])
      && (forall k :: k in r ==> k in m || k == "avatar" || k == "name")
      && ReadSlot(r, "avatar") == Some(avatar)
      && ReadSlot(r, "name") == Some(name)
  {
    SlotRoundTrip(m, "avatar", avatar);
    SlotRoundTrip(m + SlotProp("avatar", avatar), "name", name);
  }

  /** The session record's properties that are always written. */
  function SessionProps(s: SessionSlice.State): (m: map<string, Value>)
    ensures m.Keys == {"email", "phone", "address", "user", "isAuthenticated"}
    ensures m["email"] == VStr(s.email) && m["phone"] == VStr(s.phone) && m["address"] == VStr(s.address)
    ensures m["user"] == (if s.user.Some? then EncodeUser(s.user.value) else VNull)
    ensures m["isAuthenticated"] == VBool(s.isAuthenticated)
  {
    map["email" := VStr(s.email), "phone" := VStr(s.phone), "address" := VStr(s.address),
      "user" := (if s.user.Some? then EncodeUser(s.user.value) else VNull),
      "isAuthenticated" := VBool(s.isAuthenticated)]
  }

  /**
    The whole session record, as written under the session key. `user` is
    `null` when nobody is signed in.
   */
  function EncodeSession(s: SessionSlice.State): (v: Value)
    ensures v.VObj? && Truthy(v)
    ensures Member(v, "email") == Some(VStr(s.email))
    ensures Member(v, "phone") == Some(VStr(s.phone))
    ensures Member(v, "address") == Some(VStr(s.address))
    ensures ReadSlot(v.props, "avatar") == Some(s.avatar)
    ensures ReadSlot(v.props, "name") == Some(s.name)
    ensures Member(v, "user") == Some(if s.user.Some? then EncodeUser(s.user.value) else VNull)
    ensures Member(v, "isAuthenticated") == Some(VBool(s.isAuthenticated))
    ensures Member(v, "password") == None
  {
    var fixed := SessionProps(s);
    TwoSlots(fixed, s.avatar, s.name);
    VObj(fixed + SlotProp("avatar", s.avatar) + SlotProp("name", s.name))
  }
}

=== FILE: dashboard.dfy ===
/**
  The dashboard: the add/edit modal with its validation, approval of pending
  requests, the reset button, and the three counters it displays (derived
  from the request list, not read from the leave-summary slice).
 */
module Dashboard {
  import opened Wrappers
  import opened Seqs
  import opened Store
  import LeaveSummarySlice
  import RecentRequestsSlice

  const Pending: string := "Pending"
  const Approved: string := "Approved"

  // ---------------------------------------------------------------------------
  // `String.prototype.trim`

  /** ECMAScript white space and line terminators, the characters `trim` strips. */
  predicate IsJsWhitespace(c: char)
  {
    var n := c as int;
    n == 0x09 || n == 0x0A || n == 0x0B || n == 0x0C || n == 0x0D || n == 0x20 || n == 0xA0
    || n == 0x1680 || (0x2000 <= n <= 0x200A) || n == 0x2028 || n == 0x2029 || n == 0x202F
    || n == 0x205F || n == 0x3000 || n == 0xFEFF
  }

  function TrimStart(s: string): string
  {
    if |s| > 0 && IsJsWhitespace(s[0]) then TrimStart(s[1..]) else s
  }

  function TrimEnd(s: string): string
  {
    if |s| > 0 && IsJsWhitespace(s[|s| - 1]) then TrimEnd(s[..|s| - 1]) else s
  }

  function Trim(s: string): string
  {
    TrimEnd(TrimStart(s))
  }

  /** Trimming leaves nothing exactly when every character is white space. */
  lemma {:induction false} TrimEmptyIff(s: string)
    ensures Trim(s) == "" <==> forall i :: 0 <= i < |s| ==> IsJsWhitespace(s[i])
  {
    TrimStartEmptyIff(s);
    var t := TrimStart(s);
    if |t| > 0 {
      TrimStartKeepsHead(s);
      TrimEndNonEmpty(t);
    }
  }

  lemma {:induction false} TrimStartEmptyIff(s: string)
    ensures TrimStart(s) == "" <==> forall i :: 0 <= i < |s| ==> IsJsWhitespace(s[i])
    decreases |s|
  {
    if |s| > 0 && IsJsWhitespace(s[0]) {
      TrimStartEmptyIff(s[1..]);
      assert forall i :: 1 <= i < |s| ==> s[i] == s[1..][i - 1];
    }
  }

  lemma {:induction false} TrimStartKeepsHead(s: string)
    requires |TrimStart(s)| > 0
    ensures !IsJsWhitespace(TrimStart(s)[0])
    decreases |s|
  {
    if |s| > 0 && IsJsWhitespace(s[0]) {
      TrimStartKeepsHead(s[1..]);
    }
  }

  lemma {:induction false} TrimEndNonEmpty(s: string)
    requires |s| > 0 && !IsJsWhitespace(s[0])
    ensures TrimEnd(s) != ""
    decreases |s|
  {
    if IsJsWhitespace(s[|s| - 1]) {
      assert |s| > 1;
      TrimEndNonEmpty(s[..|s| - 1]);
    }
  }

  // ---------------------------------------------------------------------------
  // The add/edit modal

  /** The modal's form; `leaveType` is the source's `type` field. */
  datatype Form = Form(id: int, date: string, leaveType: string)

  datatype Errors = Errors(date: Option<string>, leaveType: Option<string>)

  datatype Modal = Modal(visible: bool, isEdit: bool, form: Form, errors: Errors)

  const BlankForm: Form := Form(0, "", "")

  const NoErrors: Errors := Errors(None, None)

  /** `validate`: a missing date and a blank type each produce their own message. */
  function Validate(f: Form): (e: Errors)
    ensures e.date.Some? <==> f.date == ""
    ensures e.leaveType.Some? <==> forall i :: 0 <= i < |f.leaveType| ==> IsJsWhitespace(f.leaveType[i])
    ensures e.date.Some? ==> e.date.value == "Date is required"
    ensures e.leaveType.Some? ==> e.leaveType.value == "Type is required"
  {
    TrimEmptyIff(f.leaveType);
    Errors(
      if f.date == "" then Some("Date is required") else None,
      if Trim(f.leaveType) == "" then Some("Type is required") else None)
  }

  /** `validate()` returns true exactly when no error was recorded. */
  predicate Passes(e: Errors)
  {
    e.date.None? && e.leaveType.None?
  }

  /** `openAddModal`: a blank form in add mode. */
  function OpenAdd(m: Modal): (r: Modal)
    ensures r.visible && !r.isEdit && r.form == BlankForm && r.errors == m.errors
  {
    m.(visible := true, isEdit := false, form := BlankForm)
  }

  /** `openEditModal`: the row's id, date and type in edit mode. */
  function OpenEdit(m: Modal, req: RecentRequestsSlice.RecentRequest): (r: Modal)
    ensures r.visible && r.isEdit && r.errors == m.errors
    ensures r.form.id == req.id && r.form.date == req.date && r.form.leaveType == req.leaveType
  {
    m.(visible := true, isEdit := true, form := Form(req.id, req.date, req.leaveType))
  }

  /** `closeModal`: hide and blank the form; the last errors stay recorded. */
  function Close(m: Modal): (r: Modal)
    ensures !r.visible && !r.isEdit && r.form == BlankForm && r.errors == m.errors
  {
    m.(visible := false, isEdit := false, form := BlankForm)
  }

  /** Closing forgets the mode and the form, whichever way the modal was opened. */
  lemma CloseForgetsForm(m: Modal, req: RecentRequestsSlice.RecentRequest)
    ensures Close(OpenAdd(m)) == Close(m) && Close(OpenEdit(m, req)) == Close(m)
  {
  }

  datatype Step = Step(modal: Modal, actions: seq<Action>)

  /**
    `handleSubmit`. `now` stands for `Date.now()`, the id of a new request
    whose form id is 0. An edit keeps the status of the first request with the
    form's id, or "Pending" when there is none.
   */
  function Submit(m: Modal, requests: RecentRequestsSlice.State, now: int): (r: Step)
    ensures !Passes(Validate(m.form)) ==>
      r.actions == [] && r.modal == m.(errors := Validate(m.form))
    ensures Passes(Validate(m.form)) ==> |r.actions| == 1 && r.modal == Close(m.(errors := NoErrors))
    ensures Passes(Validate(m.form)) && !m.isEdit ==>
      r.actions[0] == RecentRequestsAction(RecentRequestsSlice.AddRecentRequest(
        RecentRequestsSlice.RecentRequest(if m.form.id != 0 then m.form.id else now, m.form.date, m.form.leaveType, Pending)))
    ensures Passes(Validate(m.form)) && m.isEdit ==>
      r.actions[0].RecentRequestsAction? && r.actions[0].recentRequests.UpdateRecentRequest?
      && var sent := r.actions[0].recentRequests.request;
         sent.id == m.form.id && sent.date == m.form.date && sent.leaveType == m.form.leaveType
         && ((forall i :: 0 <= i < |requests| ==> requests[i].id != m.form.id) ==> sent.status == Pending)
         && (forall i ::
               (0 <= i < |requests| && requests[i].id == m.form.id && forall j :: 0 <= j < i ==> requests[j].id != m.form.id)
               ==> sent.status == requests[i].status)
  {
    var errors := Validate(m.form);
    var m' := m.(errors := errors);
    if !Passes(errors) then Step(m', [])
    else if m.isEdit then
      var original := Find(requests, (x: RecentRequestsSlice.RecentRequest) => x.id == m.form.id);
      var status := if original.Some? then original.value.status else Pending;
      Step(Close(m'), [RecentRequestsAction(RecentRequestsSlice.UpdateRecentRequest(
        RecentRequestsSlice.RecentRequest(m.form.id, m.form.date, m.form.leaveType, status)))])
    else
      var id := if m.form.id != 0 then m.form.id else now;
      Step(Close(m'), [RecentRequestsAction(RecentRequestsSlice.AddRecentRequest(
        RecentRequestsSlice.RecentRequest(id, m.form.date, m.form.leaveType, Pending)))])
  }

  /** A freshly opened add form is blank, so submitting it at once is refused with both errors. */
  lemma BlankAddFormIsRefused(m: Modal, requests: RecentRequestsSlice.State, now: int)
    ensures var step := Submit(OpenAdd(m), requests, now);
      step.actions == [] && step.modal.visible
      && step.modal.errors == Errors(Some("Date is required"), Some("Type is required"))
  {
  }

  /** `handleApprove`: the same row with status "Approved". */
  function Approve(r: RecentRequestsSlice.RecentRequest): (a: Action)
    ensures a.RecentRequestsAction? && a.recentRequests.UpdateRecentRequest?
    ensures a.recentRequests.request.status == Approved
    ensures a.recentRequests.request.(status := r.status) == r
  {
    RecentRequestsAction(RecentRequestsSlice.UpdateRecentRequest(r.(status := Approved)))
  }

  /** The Approve button is rendered for pending rows only. */
  predicate ApproveOffered(r: RecentRequestsSlice.RecentRequest)
  {
    r.status == Pending
  }

  /** `deleteAllData`: reset the leave summary, then empty the request list. */
  const DeleteAllData: seq<Action> := [
    LeaveSummaryAction(LeaveSummarySlice.ResetLeaveSummary),
    RecentRequestsAction(RecentRequestsSlice.ResetRecentRequests)]

  // ---------------------------------------------------------------------------
  // Displayed counters

  /** `recentRequests.length` */
  function Total(rs: RecentRequestsSlice.State): (n: nat)
    ensures n == |rs|
  {
    |rs|
  }

  /** `recentRequests.filter(r => r.status === 'Approved').length` */
  function Taken(rs: RecentRequestsSlice.State): (n: nat)
    ensures n == |Filter(rs, (r: RecentRequestsSlice.RecentRequest) => r.status == Approved)|
  {
    CountIsFilterLength(rs, (r: RecentRequestsSlice.RecentRequest) => r.status == Approved);
    Count(rs, (r: RecentRequestsSlice.RecentRequest) => r.status == Approved)
  }

  /** `recentRequests.filter(r => r.status === 'Pending').length` */
  function Remaining(rs: RecentRequestsSlice.State): (n: nat)
    ensures n == |Filter(rs, (r: RecentRequestsSlice.RecentRequest) => r.status == Pending)|
  {
    CountIsFilterLength(rs, (r: RecentRequestsSlice.RecentRequest) => r.status == Pending);
    Count(rs, (r: RecentRequestsSlice.RecentRequest) => r.status == Pending)
  }

  /** The approved and the pending requests together never outnumber all requests. */
  lemma CountersBounded(rs: RecentRequestsSlice.State)
    ensures Taken(rs) + Remaining(rs) <= Total(rs)
  {
    CountDisjoint(rs, (r: RecentRequestsSlice.RecentRequest) => r.status == Approved, (r: RecentRequestsSlice.RecentRequest) => r.status == Pending);
  }

  /** The first row with an id is the one an update by that id replaces. */
  predicate FirstWithId(rs: RecentRequestsSlice.State, i: nat)
  {
    i < |rs| && forall j :: 0 <= j < i ==> rs[j].id != rs[i].id
  }

  /**
    Approving the pending row that an update by its id reaches moves one
    request from the remaining counter to the taken one, and offers no
    further approval for it.
   */
  lemma ApproveMovesCounters(rs: RecentRequestsSlice.State, i: nat)
    requires FirstWithId(rs, i) && ApproveOffered(rs[i])
    ensures var rs' := RecentRequestsSlice.Reduce(rs, Approve(rs[i]).recentRequests);
      && Total(rs') == Total(rs)
      && Taken(rs') == Taken(rs) + 1
      && Remaining(rs') == Remaining(rs) - 1
      && !ApproveOffered(rs'[i])
  {
    var x := rs[i].(status := Approved);
    assert RecentRequestsSlice.Reduce(rs, Approve(rs[i]).recentRequests) == rs[i := x];
    CountUpdate(rs, i, x, (r: RecentRequestsSlice.RecentRequest) => r.status == Approved);
    CountUpdate(rs, i, x, (r: RecentRequestsSlice.RecentRequest) => r.status == Pending);
  }

  /** Opening a row for edit and submitting it unchanged leaves the request list as it was. */
  lemma EditUnchangedIsNoOp(m: Modal, rs: RecentRequestsSlice.State, i: nat, now: int)
    requires FirstWithId(rs, i)
    requires rs[i].date != "" && exists k :: 0 <= k < |rs[i].leaveType| && !IsJsWhitespace(rs[i].leaveType[k])
    ensures var step := Submit(OpenEdit(m, rs[i]), rs, now);
      |step.actions| == 1 && step.actions[0].RecentRequestsAction?
      && RecentRequestsSlice.Reduce(rs, step.actions[0].recentRequests) == rs
      && !step.modal.visible
  {
    var step := Submit(OpenEdit(m, rs[i]), rs, now);
    assert step.actions[0].recentRequests.request == rs[i];
    assert rs[i := rs[i]] == rs;
  }

  /** Reset brings back the default summary and an empty list, so every counter reads zero. */
  lemma DeleteAllDataResets(s: RootState)
    ensures var r := DispatchAll(s, DeleteAllData);
      r.leaveSummary == LeaveSummarySlice.Default && r.recentRequests == []
      && Total(r.recentRequests) == 0 && Taken(r.recentRequests) == 0 && Remaining(r.recentRequests) == 0
      && r.users == s.users && r.session == s.session
  {
    DispatchTwo(s, DeleteAllData[0], DeleteAllData[1]);
  }
}

=== FILE: hooks.dfy ===
/**
  The selector hooks: read-only projections of the aggregate state. Being
  functions of the state, evaluating one cannot change it.
 */
module Hooks {
  import opened Wrappers
  import opened Store
  import SessionSlice
  import UsersSlice
  import LeaveSummarySlice
  import RecentRequestsSlice

  function UsersList(s: RootState): UsersSlice.State { s.users }

  /** `session.user || null`: a present user is an object, hence truthy. */
  function CurrentUser(s: RootState): Option<UsersSlice.User> { s.session.user }

  function LeaveSummary(s: RootState): LeaveSummarySlice.Summary { s.leaveSummary }

  function RecentRequests(s: RootState): RecentRequestsSlice.State { s.recentRequests }

  function SessionState(s: RootState): SessionSlice.State { s.session }

  /** The stored flag itself, not recomputed from the user. */
  function IsAuthenticated(s: RootState): bool { s.session.isAuthenticated }

  /**
    Each selector follows its own slice through a dispatch: it takes the
    owning slice reducer's result when the action belongs to that slice and
    is unchanged otherwise. The user and flag selectors read the new session.
   */
  lemma SelectorsFollowDispatch(s: RootState, a: Action)
    ensures UsersList(RootReduce(s, a)) ==
      if a.UsersAction? then UsersSlice.Reduce(UsersList(s), a.users) else UsersList(s)
    ensures LeaveSummary(RootReduce(s, a)) ==
      if a.LeaveSummaryAction? then LeaveSummarySlice.Reduce(LeaveSummary(s), a.leaveSummary) else LeaveSummary(s)
    ensures RecentRequests(RootReduce(s, a)) ==
      if a.RecentRequestsAction? then RecentRequestsSlice.Reduce(RecentRequests(s), a.recentRequests) else RecentRequests(s)
    ensures SessionState(RootReduce(s, a)) ==
      if a.SessionAction? then SessionSlice.Reduce(SessionState(s), a.session) else SessionState(s)
    ensures CurrentUser(RootReduce(s, a)) == SessionState(RootReduce(s, a)).user
    ensures IsAuthenticated(RootReduce(s, a)) == SessionState(RootReduce(s, a)).isAuthenticated
  {
  }

  /** After `signout`, from any state, there is no current user and nobody is authenticated. */
  lemma SignoutSelectors(s: RootState)
    ensures CurrentUser(RootReduce(s, SessionAction(SessionSlice.Signout))) == None
    ensures !IsAuthenticated(RootReduce(s, SessionAction(SessionSlice.Signout)))
    ensures UsersList(RootReduce(s, SessionAction(SessionSlice.Signout))) == UsersList(s)
  {
  }

  /**
    On every state the app reaches, the stored flag agrees with the presence
    of a current user.
   */
  lemma {:induction false} FlagAgreesWithUser(acts: seq<Action>)
    ensures IsAuthenticated(DispatchAll(Initial, acts)) <==> CurrentUser(DispatchAll(Initial, acts)).Some?
  {
    DispatchKeepsSessionInvariant(Initial, acts);
  }

  /** The flag is read, not derived: on a state where the two disagree, the selectors disagree too. */
  lemma FlagIsReadDirectly(s: RootState)
    requires s.session.isAuthenticated && s.session.user.None?
    ensures IsAuthenticated(s) && CurrentUser(s).None?
  {
  }

  /** Adding a user makes it the last entry of the users list selector. */
  lemma AddUserSelector(s: RootState, u: UsersSlice.User)
    ensures UsersList(RootReduce(s, UsersAction(UsersSlice.AddUser(u)))) == UsersList(s) + [u]
    ensures u in UsersList(RootReduce(s, UsersAction(UsersSlice.AddUser(u))))
  {
  }
}

=== FILE: js.dfy ===
/**
  Plain JavaScript data as it comes out of `JSON.parse`: the values the device
  storage holds and the profile screen manipulates directly. Objects are maps
  from property name to value, so the object spread `{...a, ...b}` is the map
  union `a + b` (the right operand wins on shared keys). Numbers are integers.
 */
module Js {
  import opened Wrappers

  datatype Value =
    | VNull
    | VBool(b: bool)
    | VNum(n: int)
    | VStr(s: string)
    | VArr(items: seq<Value>)
    | VObj(props: map<string, Value>)

  /** A property that may be missing (`undefined`), `null`, or set. */
  datatype Slot<+T> = Undefined | Null | Defined(value: T)

  /** JavaScript truthiness of a parsed value. */
  predicate Truthy(v: Value)
  {
    match v
    case VNull => false
    case VBool(b) => b
    case VNum(n) => n != 0
    case VStr(s) => s != ""
    case VArr(_) => true
    case VObj(_) => true
  }

  /**
    Reading `v.key` on a value that is not null: an object's own property, and
    `undefined` (None) for everything else. Reading a property of `null` throws
    and is handled by the callers.
   */
  function Member(v: Value, key: string): (r: Option<Value>)
    ensures r.Some? <==> v.VObj? && key in v.props
    ensures r.Some? ==> r.value == v.props[key]
  {
    if v.VObj? && key in v.props then Some(v.props[key]) else None
  }

  /**
    `a === b` between two property reads (None is `undefined`). Arrays and
    objects coming out of separate `JSON.parse` calls are distinct references,
    so they are never strictly equal.
   */
  predicate StrictEquals(a: Option<Value>, b: Option<Value>)
  {
    match (a, b)
    case (None, None) => true
    case (Some(VNull), Some(VNull)) => true
    case (Some(VBool(x)), Some(VBool(y))) => x == y
    case (Some(VNum(x)), Some(VNum(y))) => x == y
    case (Some(VStr(x)), Some(VStr(y))) => x == y
    case _ => false
  }

  /** Decimal spelling of an array index, the property name it has in a spread. */
  function DecimalString(n: nat): (r: string)
    ensures |r| > 0
  {
    var digit := ['0' + (n % 10) as char];
    if n < 10 then digit else DecimalString(n / 10) + digit
  }

  /** Index-named properties `from`, `from + 1`, ... of an array being spread. */
  function IndexedProps(items: seq<Value>, from: nat): map<string, Value>
    decreases |items| - from
  {
    if from >= |items| then map[]
    else IndexedProps(items, from + 1)[DecimalString(from) := items[from]]
  }

  /**
    The own enumerable properties that `{...v}` copies: an object's
    properties, the indices of an array or of a string, and nothing for
    `null`, booleans and numbers.
   */
  function OwnProps(v: Value): (r: map<string, Value>)
    ensures v.VObj? ==> r == v.props
    ensures v.VNull? || v.VBool? || v.VNum? ==> r == map[]
  {
    match v
    case VObj(m) => m
    case VArr(items) => IndexedProps(items, 0)
    case VStr(s) => IndexedProps(seq(|s|, i requires 0 <= i < |s| => VStr([s[i]])), 0)
    case _ => map[]
  }

  /** `{...a, ...b}`: the properties of `b` override those of `a`, the rest of `a` remains. */
  function Spread(a: map<string, Value>, b: Value): (r: map<string, Value>)
    ensures r.Keys == a.Keys + OwnProps(b).Keys
    ensures forall k :: k in OwnProps(b) ==> r[k] == OwnProps(b)[k]
    ensures forall k :: k in a && k !in OwnProps(b) ==> r[k] == a[k]
  {
    a + OwnProps(b)
  }
}

=== FILE: layout.dfy ===
/** The root layout: which route segment is current, the route guard, and logout. */
module Layout {
  import opened Wrappers
  import opened Ui
  import opened Store
  import SessionSlice
  import Signup

  const AuthRoutes: seq<string> := ["dashboard", "profile"]
  const UnauthRoutes: seq<string> := ["login", "signup"]

  /** `segments[segments.length - 1] || ''`: the last route segment, or "" when there is none. */
  function CurrentPath(segments: seq<string>): (p: string)
    ensures |segments| == 0 ==> p == ""
    ensures |segments| > 0 ==> p == segments[|segments| - 1]
  {
    if |segments| == 0 then "" else segments[|segments| - 1]
  }

  /** The segments of one of the app's routes, all of which are one level deep ("/login" is ["login"]). */
  function SegmentsOf(href: string): seq<string>
  {
    if |href| > 0 && href[0] == '/' then [href[1..]] else [href]
  }

  /** What `AppContent` renders. */
  datatype View =
    | Loading        // session state not yet available
    | PublicStack    // screens without header, for signed-out users
    | AppStack       // screens with the header and user menu
    | Redirect(href: string)

  /** The route guard; `session` is None while the session state is undefined. */
  function Guard(session: Option<SessionSlice.State>, path: string): (v: View)
    ensures v == Loading <==> session.None?
    ensures session.Some? && !session.value.isAuthenticated ==>
      (v == PublicStack <==> path in UnauthRoutes) && (v != PublicStack ==> v == Redirect("/login"))
    ensures session.Some? && session.value.isAuthenticated ==>
      (v == AppStack <==> path in AuthRoutes) && (v != AppStack ==> v == Redirect("/dashboard"))
  {
    match session
    case None => Loading
    case Some(s) =>
      if !s.isAuthenticated then
        if path in UnauthRoutes then PublicStack else Redirect("/login")
      else
        if path !in AuthRoutes then Redirect("/dashboard") else AppStack
  }

  /** Following a redirect lands on a route the guard accepts: it never redirects twice. */
  lemma GuardSettles(session: Option<SessionSlice.State>, path: string)
    ensures var v := Guard(session, path);
      v.Redirect? ==> !Guard(session, CurrentPath(SegmentsOf(v.href))).Redirect?
  {
    var v := Guard(session, path);
    if v.Redirect? {
      assert SegmentsOf("/login") == ["login"];
      assert SegmentsOf("/dashboard") == ["dashboard"];
    }
  }

  /** `handleLogout`: sign out, then go to the login screen. */
  function HandleLogout(): (o: Outcome)
    ensures o.alert.None? && o.navigate == Some("/login")
    ensures o.actions == [SessionAction(SessionSlice.Signout)]
  {
    Outcome(None, [SessionAction(SessionSlice.Signout)], Some("/login"))
  }

  /** After logout the login screen is shown as is, from any prior state. */
  lemma LogoutShowsLogin(s: RootState)
    ensures var r := DispatchAll(s, HandleLogout().actions);
      Guard(Some(r.session), CurrentPath(SegmentsOf(HandleLogout().navigate.value))) == PublicStack
      && r.users == s.users
  {
    DispatchOne(s, SessionAction(SessionSlice.Signout));
    assert SegmentsOf("/login") == ["login"];
  }

  /**
    Signup navigates to "/login", but it has already signed the new user in,
    so the guard sends that navigation on to the dashboard.
   */
  lemma SignupLandsOnDashboard(s: RootState, name: string, email: string, password: string)
    requires name != "" && email != "" && password != ""
    requires forall i :: 0 <= i < |s.users| ==> s.users[i].email != email
    ensures var o := Signup.HandleSignup(s.users, name, email, password);
      o.navigate == Some("/login")
      && Guard(Some(Signup.AfterSignup(s, name, email, password).session), CurrentPath(SegmentsOf(o.navigate.value)))
         == Redirect("/dashboard")
  {
    Signup.SignupSuccess(s, name, email, password);
    assert SegmentsOf("/login") == ["login"];
  }
}

=== FILE: leave_summary_slice.dfy ===
/**
  The leave-summary slice: a record of three counters that is set wholesale or
  reset to a fixed default. Nothing ties the three numbers together.
 */
module LeaveSummarySlice {

  datatype Summary = Summary(total: int, taken: int, remaining: int)

  const Default: Summary := Summary(30, 12, 18)

  datatype Action = SetLeaveSummary(summary: Summary) | ResetLeaveSummary

  /** The arithmetic a summary ought to satisfy, which the slice does not enforce. */
  predicate Balanced(s: Summary)
  {
    s.total == s.taken + s.remaining
  }

  /** `setLeaveSummary` takes the payload as given; `resetLeaveSummary` ignores the prior state. */
  function Reduce(s: Summary, a: Action): (r: Summary)
    ensures a.ResetLeaveSummary? ==> r.total == 30 && r.taken == 12 && r.remaining == 18
    ensures a.SetLeaveSummary? ==> r == a.summary
  {
    match a
    case SetLeaveSummary(x) => x
    case ResetLeaveSummary => Default
  }

  /** Reset is idempotent and forgets any earlier `set`. */
  lemma ResetIdempotent(s: Summary, x: Summary)
    ensures Reduce(Reduce(s, ResetLeaveSummary), ResetLeaveSummary) == Reduce(s, ResetLeaveSummary)
    ensures Reduce(Reduce(s, SetLeaveSummary(x)), ResetLeaveSummary) == Default
  {
  }

  /** The default is balanced, but `set` accepts an unbalanced record unchanged. */
  lemma SetCanUnbalance(s: Summary)
    ensures Balanced(Default)
    ensures !Balanced(Reduce(s, SetLeaveSummary(Summary(20, 5, 5))))
  {
  }
}

=== FILE: login.dfy ===
/** The login screen's `handleLogin`: plain-text credential matching against the user list. */
module Login {
  import opened Wrappers
  import opened Seqs
  import opened Ui
  import opened Store
  import SessionSlice
  import UsersSlice

  const FillAllFields: string := "Please fill in all fields"
  const InvalidCredentials: string := "Invalid credentials"

  /** The stored user has exactly these credentials. */
  predicate Matches(u: UsersSlice.User, email: string, password: string)
  {
    u.email == email && u.password == password
  }

  function HandleLogin(users: UsersSlice.State, email: string, password: string): (o: Outcome)
    ensures email == "" || password == "" ==> o == ErrorOnly(FillAllFields)
    ensures email != "" && password != "" ==>
      (o.actions != [] <==> exists i :: 0 <= i < |users| && Matches(users[i], email, password))
    ensures o.actions != [] ==>
      o.navigate == Some("/dashboard") && o.alert.None? && |o.actions| == 1
      && exists i :: 0 <= i < |users| && o.actions[0] == SessionAction(SessionSlice.Signin(users[i]))
           && Matches(users[i], email, password) && forall j :: 0 <= j < i ==> !Matches(users[j], email, password)
    ensures email != "" && password != "" && o.actions == [] ==> o == ErrorOnly(InvalidCredentials)
  {
    if email == "" || password == "" then ErrorOnly(FillAllFields)
    else match Find(users, (u: UsersSlice.User) => Matches(u, email, password))
      case Some(user) => Outcome(None, [SessionAction(SessionSlice.Signin(user))], Some("/dashboard"))
      case None => ErrorOnly(InvalidCredentials)
  }

  /** Logging in touches the session only: the user list, summary and requests are left as they were. */
  lemma LoginOnlyTouchesSession(s: RootState, email: string, password: string)
    ensures var r := DispatchAll(s, HandleLogin(s.users, email, password).actions);
      r.users == s.users && r.leaveSummary == s.leaveSummary && r.recentRequests == s.recentRequests
  {
    var acts := HandleLogin(s.users, email, password).actions;
    if acts != [] {
      DispatchOne(s, acts[0]);
      assert acts == [acts[0]];
    }
  }

  /** A failed login leaves the whole store, session included, exactly as it was. */
  lemma FailedLoginChangesNothing(s: RootState, email: string, password: string)
    requires forall i :: 0 <= i < |s.users| ==> !Matches(s.users[i], email, password)
    ensures DispatchAll(s, HandleLogin(s.users, email, password).actions) == s
    ensures HandleLogin(s.users, email, password).alert.Some?
  {
  }

  /** A successful login leaves the matching user signed in and authenticated. */
  lemma SuccessfulLogin(s: RootState, email: string, password: string, i: nat)
    requires email != "" && password != ""
    requires i < |s.users| && Matches(s.users[i], email, password)
    ensures var r := DispatchAll(s, HandleLogin(s.users, email, password).actions);
      r.session.isAuthenticated && r.session.user.Some? && Matches(r.session.user.value, email, password)
  {
    var acts := HandleLogin(s.users, email, password).actions;
    DispatchOne(s, acts[0]);
    assert acts == [acts[0]];
  }
}

=== FILE: persistence.dfy ===
/**
  The persistence hook: at start-up it reads one stored value per slice and
  dispatches the matching action; on every state change it writes each slice
  back under its own key. Device storage is a map from key to parsed value; a
  missing key and a value that fails to read (an I/O error or unparsable text,
  both turned into `null` by the storage wrapper) are the same absent entry.
 */
module Persistence {
  import opened Wrappers
  import opened Js
  import opened Codec
  import opened Store
  import SessionSlice
  import UsersSlice
  import LeaveSummarySlice
  import RecentRequestsSlice

  type Storage = map<string, Value>

  const SessionKey: string := "session"
  const UsersKey: string := "users"
  const LeaveSummaryKey: string := "leaveSummary"
  const RecentRequestsKey: string := "recentRequests"

  /** `getData`: the parsed value under `key`, or null. */
  function GetData(st: Storage, key: string): Option<Value>
  {
    if key in st then Some(st[key]) else None
  }

  /** Position of an action's slice in the load and save order. */
  function SliceOrder(a: Action): nat
  {
    match a
    case SessionAction(_) => 0
    case UsersAction(_) => 1
    case LeaveSummaryAction(_) => 2
    case RecentRequestsAction(_) => 3
  }

  /**
    The user a stored session brings back: `savedSession && savedSession.user`
    must both be truthy, and the user must read back as a user record.
   */
  function SessionUser(saved: Option<Value>): (u: Option<UsersSlice.User>)
    ensures u.Some? <==>
      saved.Some? && Truthy(saved.value) && Member(saved.value, "user").Some?
      && Truthy(Member(saved.value, "user").value) && DecodeUser(Member(saved.value, "user").value).Some?
    ensures u.Some? ==> u == DecodeUser(Member(saved.value, "user").value)
  {
    if saved.None? || !Truthy(saved.value) then None
    else match Member(saved.value, "user")
      case None => None
      case Some(v) => if Truthy(v) then DecodeUser(v) else None
  }

  /** `if (savedSession && savedSession.user) dispatch(signin(savedSession.user))` */
  function SessionLoad(saved: Option<Value>): (acts: seq<Action>)
    ensures |acts| <= 1
    ensures |acts| == 1 <==>
      saved.Some? && Truthy(saved.value) && Member(saved.value, "user").Some?
      && Truthy(Member(saved.value, "user").value) && DecodeUser(Member(saved.value, "user").value).Some?
    ensures |acts| == 1 ==>
      acts[0] == SessionAction(SessionSlice.Signin(DecodeUser(Member(saved.value, "user").value).value))
  {
    match SessionUser(saved)
    case Some(user) => [SessionAction(SessionSlice.Signin(user))]
    case None => []
  }

  /** `if (saved) dispatch(set...(saved))` for a slice whose stored shape is read by `decode`. */
  function SliceLoad<T>(saved: Option<Value>, decode: Value -> Option<T>, wrap: T -> Action): (acts: seq<Action>)
    ensures |acts| <= 1
    ensures |acts| == 1 <==> saved.Some? && Truthy(saved.value) && decode(saved.value).Some?
    ensures |acts| == 1 ==> acts[0] == wrap(decode(saved.value).value)
  {
    if saved.Some? && Truthy(saved.value) then
      match decode(saved.value)
      case Some(x) => [wrap(x)]
      case None => []
    else []
  }

  function WrapUsers(l: seq<UsersSlice.User>): Action
  {
    UsersAction(UsersSlice.SetUsers(l))
  }

  function WrapSummary(x: LeaveSummarySlice.Summary): Action
  {
    LeaveSummaryAction(LeaveSummarySlice.SetLeaveSummary(x))
  }

  function WrapRequests(l: seq<RecentRequestsSlice.RecentRequest>): Action
  {
    RecentRequestsAction(RecentRequestsSlice.SetRecentRequests(l))
  }

  /** What `loadPersistedData` dispatches, in the order it dispatches it. */
  function LoadActions(st: Storage): (acts: seq<Action>)
    ensures |acts| <= 4
    ensures forall i, j :: 0 <= i < j < |acts| ==> SliceOrder(acts[i]) < SliceOrder(acts[j])
  {
    SessionLoad(GetData(st, SessionKey))
    + SliceLoad(GetData(st, UsersKey), DecodeUsers, WrapUsers)
    + SliceLoad(GetData(st, LeaveSummaryKey), DecodeSummary, WrapSummary)
    + SliceLoad(GetData(st, RecentRequestsKey), DecodeRequests, WrapRequests)
  }

  /**
    What rehydration should produce, slice by slice: each slice is replaced by
    what its own key holds when that reads back as the slice's shape and keeps
    its current value otherwise; the session is signed in with the stored
    session's user exactly when that user is present, truthy and reads back as
    a user.
   */
  function Rehydrated(s: RootState, st: Storage): RootState
  {
    var u := SessionUser(GetData(st, SessionKey));
    RootState(
      if u.Some? then SessionSlice.Reduce(s.session, SessionSlice.Signin(u.value)) else s.session,
      if UsersKey in st && DecodeUsers(st[UsersKey]).Some? then DecodeUsers(st[UsersKey]).value else s.users,
      if LeaveSummaryKey in st && DecodeSummary(st[LeaveSummaryKey]).Some?
      then DecodeSummary(st[LeaveSummaryKey]).value else s.leaveSummary,
      if RecentRequestsKey in st && DecodeRequests(st[RecentRequestsKey]).Some?
      then DecodeRequests(st[RecentRequestsKey]).value else s.recentRequests)
  }

  /** `loadPersistedData`: the store after the rehydration dispatches have run. */
  function Load(s: RootState, st: Storage): (r: RootState)
    ensures r == Rehydrated(s, st)
  {
    LoadEffects(s, st);
    DispatchAll(s, LoadActions(st))
  }

  lemma DispatchAtMostOne(s: RootState, acts: seq<Action>)
    requires |acts| <= 1
    ensures DispatchAll(s, acts) == if |acts| == 0 then s else RootReduce(s, acts[0])
  {
    if |acts| == 1 {
      assert acts == [acts[0]];
      DispatchOne(s, acts[0]);
    }
  }

  /** The session step of loading: sign in the stored user, if there is one. */
  lemma LoadSessionStep(s: RootState, st: Storage)
    ensures var u := SessionUser(GetData(st, SessionKey));
      DispatchAll(s, SessionLoad(GetData(st, SessionKey)))
        == if u.Some? then s.(session := SessionSlice.Reduce(s.session, SessionSlice.Signin(u.value))) else s
  {
    DispatchAtMostOne(s, SessionLoad(GetData(st, SessionKey)));
  }

  lemma LoadUsersStep(s: RootState, st: Storage)
    ensures DispatchAll(s, SliceLoad(GetData(st, UsersKey), DecodeUsers, WrapUsers))
      == if UsersKey in st && DecodeUsers(st[UsersKey]).Some? then s.(users := DecodeUsers(st[UsersKey]).value) else s
  {
    DispatchAtMostOne(s, SliceLoad(GetData(st, UsersKey), DecodeUsers, WrapUsers));
    if UsersKey in st && DecodeUsers(st[UsersKey]).Some? {
      assert Truthy(st[UsersKey]);
    }
  }

  lemma LoadSummaryStep(s: RootState, st: Storage)
    ensures DispatchAll(s, SliceLoad(GetData(st, LeaveSummaryKey), DecodeSummary, WrapSummary))
      == if LeaveSummaryKey in st && DecodeSummary(st[LeaveSummaryKey]).Some?
         then s.(leaveSummary := DecodeSummary(st[LeaveSummaryKey]).value) else s
  {
    DispatchAtMostOne(s, SliceLoad(GetData(st, LeaveSummaryKey), DecodeSummary, WrapSummary));
    if LeaveSummaryKey in st && DecodeSummary(st[LeaveSummaryKey]).Some? {
      assert Truthy(st[LeaveSummaryKey]);
    }
  }

  lemma LoadRequestsStep(s: RootState, st: Storage)
    ensures DispatchAll(s, SliceLoad(GetData(st, RecentRequestsKey), DecodeRequests, WrapRequests))
      == if RecentRequestsKey in st && DecodeRequests(st[RecentRequestsKey]).Some?
         then s.(recentRequests := DecodeRequests(st[RecentRequestsKey]).value) else s
  {
    DispatchAtMostOne(s, SliceLoad(GetData(st, RecentRequestsKey), DecodeRequests, WrapRequests));
    if RecentRequestsKey in st && DecodeRequests(st[RecentRequestsKey]).Some? {
      assert Truthy(st[RecentRequestsKey]);
    }
  }

  /** Running the four load steps one after the other gives the slice-by-slice result. */
  lemma LoadEffects(s: RootState, st: Storage)
    ensures DispatchAll(s, LoadActions(st)) == Rehydrated(s, st)
  {
    var a0 := SessionLoad(GetData(st, SessionKey));
    var a1 := SliceLoad(GetData(st, UsersKey), DecodeUsers, WrapUsers);
    var a2 := SliceLoad(GetData(st, LeaveSummaryKey), DecodeSummary, WrapSummary);
    var a3 := SliceLoad(GetData(st, RecentRequestsKey), DecodeRequests, WrapRequests);
    assert LoadActions(st) == a0 + a1 + a2 + a3;
    DispatchAppend(s, a0 + a1 + a2, a3);
    DispatchAppend(s, a0 + a1, a2);
    DispatchAppend(s, a0, a1);
    var s0 := DispatchAll(s, a0);
    var s1 := DispatchAll(s0, a1);
    var s2 := DispatchAll(s1, a2);
    LoadSessionStep(s, st);
    LoadUsersStep(s0, st);
    LoadSummaryStep(s1, st);
    LoadRequestsStep(s2, st);
  }

  /** With nothing stored, loading changes nothing. */
  lemma LoadEmpty(s: RootState)
    ensures Load(s, map[]) == s
  {
  }

  /** The writes `saveData` issues, in order: one per slice under its own key. */
  function SaveWrites(s: RootState): (w: seq<(string, Value)>)
    ensures |w| == 4
    ensures w[0].0 == SessionKey && w[1].0 == UsersKey && w[2].0 == LeaveSummaryKey && w[3].0 == RecentRequestsKey
  {
    [ (SessionKey, EncodeSession(s.session)),
      (UsersKey, EncodeUsers(s.users)),
      (LeaveSummaryKey, EncodeSummary(s.leaveSummary)),
      (RecentRequestsKey, EncodeRequests(s.recentRequests)) ]
  }

  function WriteAll(st: Storage, w: seq<(string, Value)>): Storage
    decreases |w|
  {
    if |w| == 0 then st else WriteAll(st[w[0].0 := w[0].1], w[1..])
  }

  /** Storage after `saveData`: the four slice keys are rewritten and every other key kept. */
  function Save(s: RootState, st: Storage): (r: Storage)
    ensures r.Keys == st.Keys + {SessionKey, UsersKey, LeaveSummaryKey, RecentRequestsKey}
    ensures r[SessionKey] == EncodeSession(s.session) && r[UsersKey] == EncodeUsers(s.users)
    ensures r[LeaveSummaryKey] == EncodeSummary(s.leaveSummary)
    ensures r[RecentRequestsKey] == EncodeRequests(s.recentRequests)
    ensures forall k :: k in st && k !in {SessionKey, UsersKey, LeaveSummaryKey, RecentRequestsKey} ==> r[k] == st[k]
  {
    var w := SaveWrites(s);
    WriteFour(st, w);
    WriteAll(st, w)
  }

  lemma WriteFour(st: Storage, w: seq<(string, Value)>)
    requires |w| == 4
    ensures WriteAll(st, w) == st[w[0].0 := w[0].1][w[1].0 := w[1].1][w[2].0 := w[2].1][w[3].0 := w[3].1]
  {
    var w1 := w[1..];
    var w2 := w1[1..];
    var w3 := w2[1..];
    assert w1[0] == w[1] && w2[0] == w[2] && w3[0] == w[3] && w3[1..] == [];
    var st1 := st[w[0].0 := w[0].1];
    var st2 := st1[w[1].0 := w[1].1];
    var st3 := st2[w[2].0 := w[2].1];
    assert WriteAll(st3, w3) == st3[w[3].0 := w[3].1];
    assert WriteAll(st2, w2) == WriteAll(st3, w3);
    assert WriteAll(st1, w1) == WriteAll(st2, w2);
  }

  /**
    Loading into a fresh store what was just saved restores the users, the
    leave summary and the requests exactly, and signs the stored user back in.
   */
  lemma SaveLoadRoundTrip(s: RootState, st: Storage)
    ensures Load(Initial, Save(s, st)) == RootState(
      if s.session.user.Some?
      then SessionSlice.Reduce(SessionSlice.Initial, SessionSlice.Signin(s.session.user.value))
      else SessionSlice.Initial,
      s.users, s.leaveSummary, s.recentRequests)
  {
    var saved := Save(s, st);
    UsersRoundTrip(s.users);
    SummaryRoundTrip(s.leaveSummary);
    RequestsRoundTrip(s.recentRequests);
    if s.session.user.Some? {
      UserRoundTrip(s.session.user.value);
    }
  }

  /** For every state the app can reach, saving and reloading gives back that very state. */
  lemma ReachableRoundTrip(acts: seq<Action>, st: Storage)
    ensures Load(Initial, Save(DispatchAll(Initial, acts), st)) == DispatchAll(Initial, acts)
  {
    var s := DispatchAll(Initial, acts);
    DispatchKeepsSessionInvariant(Initial, acts);
    SaveLoadRoundTrip(s, st);
  }
}

=== FILE: profile.dfy ===
/**
  The profile screen. It bypasses the store: it reads the stored session to
  fill the form, and on save writes the form back as the session and merges it
  into the stored user entry with the same email. Everything here works on
  parsed JSON values, with object spread as map union.
 */
module Profile {
  import opened Wrappers
  import opened Js
  import opened Persistence
  import Codec
  import Store
  import SessionSlice
  import UsersSlice

  type Fields = map<string, Value>

  const DefaultProfile: Fields :=
    map["name" := VStr(""), "email" := VStr(""), "avatar" := VNull, "phone" := VStr(""), "address" := VStr("")]

  /**
    The form after mounting: `{...defaultProfile, ...session}` when a truthy
    session is stored, the defaults otherwise.
   */
  function InitProfile(stored: Option<Value>): (p: Fields)
    ensures p.Keys >= DefaultProfile.Keys
    ensures stored.None? || !Truthy(stored.value) ==> p == DefaultProfile
    ensures stored.Some? && stored.value.VObj? ==>
      (forall k :: k in stored.value.props ==> k in p && p[k] == stored.value.props[k])
      && (forall k :: k in DefaultProfile && k !in stored.value.props ==> p[k] == DefaultProfile[k])
    ensures stored.Some? && stored.value.VObj? ==> p.Keys == DefaultProfile.Keys + stored.value.props.Keys
    ensures stored.Some? && (stored.value.VBool? || stored.value.VNum?) ==> p == DefaultProfile
    ensures stored.Some? && Truthy(stored.value) ==>
      && p.Keys == DefaultProfile.Keys + OwnProps(stored.value).Keys
      && (forall k :: k in OwnProps(stored.value) ==> p[k] == OwnProps(stored.value)[k])
      && (forall k :: k in DefaultProfile && k !in OwnProps(stored.value) ==> p[k] == DefaultProfile[k])
  {
    if stored.Some? && Truthy(stored.value) then Spread(DefaultProfile, stored.value) else DefaultProfile
  }

  /** A truthy string session is spread into the form character by character, under its indices. */
  lemma StringSessionAddsIndices()
    ensures "0" in InitProfile(Some(VStr("ab"))) && InitProfile(Some(VStr("ab"))) != DefaultProfile
  {
    assert DecimalString(0) == "0";
  }

  /** The edits the form offers. There is none for the email, whose input is read-only. */
  datatype Edit = EditName(name: string) | EditPhone(phone: string) | EditAddress(address: string) | SetAvatar(uri: string)

  function ApplyEdit(p: Fields, e: Edit): (r: Fields)
    ensures r.Keys == p.Keys + {EditKey(e)}
    ensures r[EditKey(e)] == EditValue(e)
    ensures forall k :: k in p && k != EditKey(e) ==> r[k] == p[k]
  {
    p[EditKey(e) := EditValue(e)]
  }

  function EditKey(e: Edit): string
  {
    match e
    case EditName(_) => "name"
    case EditPhone(_) => "phone"
    case EditAddress(_) => "address"
    case SetAvatar(_) => "avatar"
  }

  function EditValue(e: Edit): Value
  {
    match e
    case EditName(t) => VStr(t)
    case EditPhone(t) => VStr(t)
    case EditAddress(t) => VStr(t)
    case SetAvatar(uri) => VStr(uri)
  }

  function ApplyEdits(p: Fields, es: seq<Edit>): Fields
    decreases |es|
  {
    if |es| == 0 then p else ApplyEdits(ApplyEdit(p, es[0]), es[1..])
  }

  /** No sequence of edits changes the email, so the key a save matches on is the one loaded at start. */
  lemma {:induction false} EditsKeepEmail(p: Fields, es: seq<Edit>)
    requires "email" in p
    ensures "email" in ApplyEdits(p, es) && ApplyEdits(p, es)["email"] == p["email"]
    decreases |es|
  {
    if |es| > 0 {
      EditsKeepEmail(ApplyEdit(p, es[0]), es[1..]);
    }
  }

  /** Outcome of the `findIndex` scan over the stored user list. */
  datatype Scan = Found(index: nat) | NotFound | HitNull

  /**
    `users.findIndex(u => u.email === email)`; reading `.email` of a `null`
    entry throws before any later entry is looked at.
   */
  function FindByEmail(items: seq<Value>, email: Option<Value>): (r: Scan)
    ensures r.Found? ==>
      (r.index < |items| && items[r.index] != VNull && StrictEquals(Member(items[r.index], "email"), email))
    ensures r.Found? || r.NotFound? ==>
      forall j :: 0 <= j < (if r.Found? then r.index else |items|) ==>
        items[j] != VNull && !StrictEquals(Member(items[j], "email"), email)
    ensures r.HitNull? ==>
      exists k :: 0 <= k < |items| && items[k] == VNull
        && forall j :: 0 <= j < k ==> items[j] != VNull && !StrictEquals(Member(items[j], "email"), email)
  {
    if |items| == 0 then NotFound
    else if items[0] == VNull then HitNull
    else if StrictEquals(Member(items[0], "email"), email) then Found(0)
    else match FindByEmail(items[1..], email)
      case Found(i) => Found(i + 1)
      case NotFound => NotFound
      case HitNull => HitNull
  }

  /**
    `handleSave` completed, or threw part-way (the loading indicator then
    stays up); either way the storage holds whatever was written before.
   */
  datatype SaveResult = Saved(storage: Storage) | Threw(storage: Storage)

  /** The stored user list as `handleSave` sees it: `(await getData()) || []`. */
  function StoredUsers(st: Storage): Value
  {
    var stored := GetData(st, UsersKey);
    if stored.Some? && Truthy(stored.value) then stored.value else VArr([])
  }

  /** `{...users[idx], ...profile}` */
  function Merge(entry: Value, p: Fields): (r: Value)
    ensures r.VObj? && r.props.Keys == OwnProps(entry).Keys + p.Keys
    ensures forall k :: k in p ==> r.props[k] == p[k]
    ensures forall k :: k in OwnProps(entry) && k !in p ==> r.props[k] == OwnProps(entry)[k]
  {
    VObj(Spread(OwnProps(entry), VObj(p)))
  }

  /**
    `handleSave`: write the profile as the session, then merge it into the
    first stored user with the same email and write the list back; when there
    is no such user the list is not written. A stored list that is not an
    array, or a `null` entry reached by the scan, makes the handler throw.
   */
  function HandleSave(p: Fields, st: Storage): (r: SaveResult)
    ensures SessionKey in r.storage && r.storage[SessionKey] == VObj(p)
    ensures forall k :: k in st && k != SessionKey && k != UsersKey ==> k in r.storage && r.storage[k] == st[k]
    ensures r.storage.Keys == st.Keys + {SessionKey}
    ensures r.Threw? <==> !StoredUsers(st).VArr? || FindByEmail(StoredUsers(st).items, Member(VObj(p), "email")).HitNull?
  {
    var st1 := st[SessionKey := VObj(p)];
    var users := StoredUsers(st1);
    if !users.VArr? then Threw(st1)
    else match FindByEmail(users.items, Member(VObj(p), "email"))
      case HitNull => Threw(st1)
      case NotFound => Saved(st1)
      case Found(i) =>
        Saved(st1[UsersKey := VArr(users.items[i := Merge(users.items[i], p)])])
  }

  /**
    When the scan finds an entry, the stored list keeps its length and every
    other entry; the found entry keeps the properties the profile lacks (such
    as the password) and takes the profile's value for every other one.
   */
  lemma SaveMerges(p: Fields, st: Storage)
    requires UsersKey in st && st[UsersKey].VArr?
    requires FindByEmail(st[UsersKey].items, Member(VObj(p), "email")).Found?
    ensures var i := FindByEmail(st[UsersKey].items, Member(VObj(p), "email")).index;
      var before := st[UsersKey].items;
      var r := HandleSave(p, st);
      && r.Saved? && UsersKey in r.storage && r.storage[UsersKey].VArr?
      && |r.storage[UsersKey].items| == |before|
      && (forall j :: 0 <= j < |before| && j != i ==> r.storage[UsersKey].items[j] == before[j])
      && r.storage[UsersKey].items[i].VObj?
      && r.storage[UsersKey].items[i].props.Keys == OwnProps(before[i]).Keys + p.Keys
      && (forall k :: k in p ==> r.storage[UsersKey].items[i].props[k] == p[k])
      && (forall k :: k in OwnProps(before[i]) && k !in p ==>
            r.storage[UsersKey].items[i].props[k] == OwnProps(before[i])[k])
  {
    var i := FindByEmail(st[UsersKey].items, Member(VObj(p), "email")).index;
    assert StoredUsers(st[SessionKey := VObj(p)]) == st[UsersKey];
  }

  /** Without a stored user under the profile's email, the stored list is left exactly as it was. */
  lemma SaveWithoutMatchKeepsUsers(p: Fields, st: Storage)
    requires StoredUsers(st).VArr? ==> !FindByEmail(StoredUsers(st).items, Member(VObj(p), "email")).Found?
    ensures UsersKey in HandleSave(p, st).storage <==> UsersKey in st
    ensures UsersKey in st ==> HandleSave(p, st).storage[UsersKey] == st[UsersKey]
  {
    assert StoredUsers(st[SessionKey := VObj(p)]) == StoredUsers(st);
  }

  /** `handleLogout` on this screen: delete the stored session. The store's session is not signed out. */
  function ProfileLogout(st: Storage): (r: Storage)
    ensures SessionKey !in r
    ensures forall k :: k in st && k != SessionKey ==> k in r && r[k] == st[k]
    ensures r.Keys == st.Keys - {SessionKey}
  {
    st - {SessionKey}
  }

  // ---------------------------------------------------------------------------
  // The profile email is always blank

  /** The email the profile screen would load from this storage. */
  function LoadedEmail(st: Storage): Value
  {
    InitProfile(GetData(st, SessionKey))["email"]
  }

  /** The form is filled with an empty email. */
  predicate EmailBlank(st: Storage)
  {
    LoadedEmail(st) == VStr("")
  }

  /** The persistence hook keeps the profile email blank: the session it writes never has a top-level email. */
  lemma HookSaveKeepsEmailBlank(s: Store.RootState, st: Storage)
    requires Store.ReachableSession(s)
    ensures EmailBlank(Save(s, st))
  {
    var v := Save(s, st)[SessionKey];
    assert v == Codec.EncodeSession(s.session);
    assert Member(v, "email") == Some(VStr(""));
  }

  /** Saving a form loaded from this storage, whatever was edited, keeps the profile email blank. */
  lemma ProfileSaveKeepsEmailBlank(st: Storage, es: seq<Edit>)
    requires EmailBlank(st)
    ensures EmailBlank(HandleSave(ApplyEdits(InitProfile(GetData(st, SessionKey)), es), st).storage)
  {
    var p := ApplyEdits(InitProfile(GetData(st, SessionKey)), es);
    EditsKeepEmail(InitProfile(GetData(st, SessionKey)), es);
    var r := HandleSave(p, st).storage;
    assert GetData(r, SessionKey) == Some(VObj(p));
  }

  /** With no stored session the form starts from the defaults. */
  lemma ProfileLogoutKeepsEmailBlank(st: Storage)
    ensures EmailBlank(ProfileLogout(st))
    ensures InitProfile(GetData(ProfileLogout(st), SessionKey)) == DefaultProfile
  {
  }

  /**
    Consequence: while the loaded email is blank, a save matches no stored
    user whose email is a non-empty string, such as every account created by
    signup. The stored user list is then left exactly as it was.
   */
  lemma SaveNeverReachesUsers(st: Storage, es: seq<Edit>)
    requires EmailBlank(st)
    requires UsersKey in st && st[UsersKey].VArr?
    requires forall j :: 0 <= j < |st[UsersKey].items| ==>
      st[UsersKey].items[j] != VNull && Member(st[UsersKey].items[j], "email") != Some(VStr(""))
    ensures var r := HandleSave(ApplyEdits(InitProfile(GetData(st, SessionKey)), es), st);
      r.Saved? && r.storage[UsersKey] == st[UsersKey]
  {
    var p := ApplyEdits(InitProfile(GetData(st, SessionKey)), es);
    EditsKeepEmail(InitProfile(GetData(st, SessionKey)), es);
    assert Member(VObj(p), "email") == Some(VStr(""));
    var items := st[UsersKey].items;
    assert StoredUsers(st[SessionKey := VObj(p)]) == st[UsersKey];
    var scan := FindByEmail(items, Some(VStr("")));
    assert !scan.HitNull?;
  }

  /** Users written by the store with non-empty emails satisfy the condition above. */
  lemma StoreUsersHaveNonBlankEmails(us: seq<UsersSlice.User>)
    requires forall j :: 0 <= j < |us| ==> us[j].email != ""
    ensures var items := Codec.EncodeUsers(us).items;
      forall j :: 0 <= j < |items| ==> items[j] != VNull && Member(items[j], "email") != Some(VStr(""))
  {
  }
}

=== FILE: recent_requests_slice.dfy ===
/**
  The recent-requests slice: leave requests, newest first. The id is the lookup
  key; the status is free text (the screens use "Pending" and "Approved", but
  any string may be stored).
 */
module RecentRequestsSlice {
  import opened Wrappers
  import opened Seqs

  /** A leave request; `leaveType` is the source's `type` field. */
  datatype RecentRequest = RecentRequest(id: int, date: string, leaveType: string, status: string)

  type State = seq<RecentRequest>

  const Initial: State := []

  datatype Action =
    | SetRecentRequests(requests: seq<RecentRequest>)
    | AddRecentRequest(request: RecentRequest)
    | ResetRecentRequests
    | UpdateRecentRequest(request: RecentRequest)

  /** `addRecentRequest`: unshift onto the front. */
  function Add(s: State, r: RecentRequest): (res: State)
    ensures |res| == |s| + 1 && res[0] == r
    ensures res[1..] == s
  {
    [r] + s
  }

  /** `updateRecentRequest`: overwrite the first request with the same id, if there is one. */
  function Update(s: State, r: RecentRequest): (res: State)
    ensures |res| == |s|
    ensures (forall i :: 0 <= i < |s| ==> s[i].id != r.id) ==> res == s
    ensures forall i :: 0 <= i < |s| && s[i].id == r.id && (forall j :: 0 <= j < i ==> s[j].id != r.id) ==>
      res == s[i := r]
  {
    match FindIndex(s, (x: RecentRequest) => x.id == r.id)
    case None => s
    case Some(i) => s[i := r]
  }

  /** The slice reducer: `setRecentRequests` replaces the list wholesale, `resetRecentRequests` empties it. */
  function Reduce(s: State, a: Action): (r: State)
    ensures a.SetRecentRequests? ==> r == a.requests
    ensures a.AddRecentRequest? ==> |r| == |s| + 1 && r[0] == a.request && r[1..] == s
    ensures a.ResetRecentRequests? ==> r == []
    ensures a.UpdateRecentRequest? ==>
      |r| == |s| && forall i :: 0 <= i < |s| && s[i].id != a.request.id ==> r[i] == s[i]
    ensures a.UpdateRecentRequest? && (forall i :: 0 <= i < |s| ==> s[i].id != a.request.id) ==> r == s
    ensures a.UpdateRecentRequest? ==>
      forall i :: 0 <= i < |s| && s[i].id == a.request.id && (forall j :: 0 <= j < i ==> s[j].id != a.request.id) ==>
        r == s[i := a.request]
  {
    match a
    case SetRecentRequests(l) => l
    case AddRecentRequest(r) => Add(s, r)
    case ResetRecentRequests => Initial
    case UpdateRecentRequest(r) => Update(s, r)
  }

  /** Adding a and then b puts b before a before everything older. */
  lemma AddOrder(s: State, a: RecentRequest, b: RecentRequest)
    ensures Reduce(Reduce(s, AddRecentRequest(a)), AddRecentRequest(b)) == [b, a] + s
  {
  }

  /**
    Ids are not checked for uniqueness, so with two requests sharing an id an
    update meant for the later one rewrites the earlier one instead.
   */
  lemma DuplicateIdUpdatesFirst(a: RecentRequest, b: RecentRequest, x: RecentRequest)
    requires a.id == b.id == x.id
    ensures Reduce([a, b], UpdateRecentRequest(x)) == [x, b]
  {
  }

  /** Reset empties the list whatever it held, and doing it twice is doing it once. */
  lemma ResetIdempotent(s: State)
    ensures Reduce(s, ResetRecentRequests) == []
    ensures Reduce(Reduce(s, ResetRecentRequests), ResetRecentRequests) == Reduce(s, ResetRecentRequests)
  {
  }
}

=== FILE: seqs.dfy ===
/**
  The three array helpers the slices and screens lean on, as pure functions over
  sequences: `findIndex`/`find` (first element satisfying a predicate), `filter`
  and a counting `filter(...).length`.
 */
module Seqs {
  import opened Wrappers

  /** Index of the first element satisfying `p`; `None` plays the role of -1. */
  function FindIndex<T>(s: seq<T>, p: T -> bool): (r: Option<nat>)
    ensures r.Some? ==> r.value < |s| && p(s[r.value])
    ensures r.Some? ==> forall j :: 0 <= j < r.value ==> !p(s[j])
    ensures r.None? <==> forall j :: 0 <= j < |s| ==> !p(s[j])
  {
    if |s| == 0 then None
    else if p(s[0]) then Some(0)
    else match FindIndex(s[1..], p)
      case None => None
      case Some(i) => Some(i + 1)
  }

  /** First element satisfying `p`, as `Array.prototype.find`. */
  function Find<T>(s: seq<T>, p: T -> bool): (r: Option<T>)
    ensures r.Some? ==> r.value in s && p(r.value)
    ensures r.None? <==> forall j :: 0 <= j < |s| ==> !p(s[j])
    ensures r.Some? ==> exists i :: 0 <= i < |s| && s[i] == r.value && forall j :: 0 <= j < i ==> !p(s[j])
  {
    match FindIndex(s, p)
    case None => None
    case Some(i) => Some(s[i])
  }

  /** Elements satisfying `p`, in their original order. */
  function Filter<T>(s: seq<T>, p: T -> bool): (r: seq<T>)
    ensures |r| <= |s|
    ensures forall x :: x in r ==> x in s && p(x)
    ensures forall i :: 0 <= i < |s| && p(s[i]) ==> s[i] in r
  {
    if |s| == 0 then []
    else (if p(s[0]) then [s[0]] else []) + Filter(s[1..], p)
  }

  /** Number of elements satisfying `p`. */
  function Count<T>(s: seq<T>, p: T -> bool): nat
  {
    if |s| == 0 then 0
    else (if p(s[0]) then 1 else 0) + Count(s[1..], p)
  }

  /** Filtering distributes over concatenation: the relative order of kept elements is preserved. */
  lemma {:induction false} FilterAppend<T>(a: seq<T>, b: seq<T>, p: T -> bool)
    ensures Filter(a + b, p) == Filter(a, p) + Filter(b, p)
  {
    if |a| == 0 {
      assert a + b == b;
    } else {
      assert (a + b)[1..] == a[1..] + b;
      FilterAppend(a[1..], b, p);
    }
  }

  /** A sequence whose every element satisfies `p` is its own filter. */
  lemma {:induction false} FilterAll<T>(s: seq<T>, p: T -> bool)
    requires forall i :: 0 <= i < |s| ==> p(s[i])
    ensures Filter(s, p) == s
  {
    if |s| > 0 {
      FilterAll(s[1..], p);
    }
  }

  /** Filtering twice by the same predicate is filtering once. */
  lemma FilterIdempotent<T>(s: seq<T>, p: T -> bool)
    ensures Filter(Filter(s, p), p) == Filter(s, p)
  {
    var r := Filter(s, p);
    forall i | 0 <= i < |r|
      ensures p(r[i])
    {
      assert r[i] in r;
    }
    FilterAll(r, p);
  }

  /** The number of kept elements is the length of the filter. */
  lemma {:induction false} CountIsFilterLength<T>(s: seq<T>, p: T -> bool)
    ensures Count(s, p) == |Filter(s, p)|
  {
    if |s| > 0 {
      CountIsFilterLength(s[1..], p);
    }
  }

  /** What a filter keeps and what `q`, the negation of its predicate, counts make up the whole sequence. */
  lemma {:induction false} FilterComplement<T>(s: seq<T>, p: T -> bool, q: T -> bool)
    requires forall x :: q(x) <==> !p(x)
    ensures |Filter(s, p)| + Count(s, q) == |s|
  {
    if |s| > 0 {
      FilterComplement(s[1..], p, q);
    }
  }

  /** Two predicates that never hold together count at most the whole sequence. */
  lemma {:induction false} CountDisjoint<T>(s: seq<T>, p: T -> bool, q: T -> bool)
    requires forall x :: p(x) ==> !q(x)
    ensures Count(s, p) + Count(s, q) <= |s|
  {
    if |s| > 0 {
      CountDisjoint(s[1..], p, q);
    }
  }

  /** Replacing one element changes a count only by what that element contributed. */
  lemma {:induction false} CountUpdate<T>(s: seq<T>, i: nat, x: T, p: T -> bool)
    requires i < |s|
    ensures Count(s[i := x], p) == Count(s, p) - (if p(s[i]) then 1 else 0) + (if p(x) then 1 else 0)
  {
    if i == 0 {
      assert s[i := x][1..] == s[1..];
    } else {
      assert s[i := x][1..] == s[1..][i - 1 := x];
      CountUpdate(s[1..], i - 1, x, p);
    }
  }

  /** Appending one element adds exactly its own contribution to a count. */
  lemma {:induction false} CountAppendOne<T>(s: seq<T>, x: T, p: T -> bool)
    ensures Count(s + [x], p) == Count(s, p) + (if p(x) then 1 else 0)
  {
    if |s| > 0 {
      assert (s + [x])[1..] == s[1..] + [x];
      CountAppendOne(s[1..], x, p);
    } else {
      assert (s + [x])[1..] == [];
    }
  }
}

=== FILE: session_slice.dfy ===
/**
  The session slice: who is signed in. Besides `user` and `isAuthenticated` the
  record carries top-level profile fields (`email`, `avatar`, `name`, `phone`,
  `address`) that no transition ever writes.
 */
module SessionSlice {
  import opened Wrappers
  import opened Js
  import opened UsersSlice

  datatype State = State(
    email: string,
    avatar: Slot<string>,
    name: Slot<string>,
    phone: string,
    address: string,
    user: Option<User>,
    isAuthenticated: bool)

  /** Nobody signed in; `avatar` and `name` start out undefined. */
  const Initial: State := State("", Undefined, Undefined, "", "", None, false)

  datatype Action = Signin(user: User) | Signout

  /** The intended invariant: the flag says exactly whether a user is present. */
  predicate Consistent(s: State)
  {
    s.isAuthenticated <==> s.user.Some?
  }

  /** The top-level profile fields hold their initial values. */
  predicate BlankProfileFields(s: State)
  {
    s.email == "" && s.avatar == Undefined && s.name == Undefined && s.phone == "" && s.address == ""
  }

  /** `signin` installs the user and raises the flag; `signout` clears both. Nothing else moves. */
  function Reduce(s: State, a: Action): (r: State)
    ensures r.email == s.email && r.avatar == s.avatar && r.name == s.name
    ensures r.phone == s.phone && r.address == s.address
    ensures Consistent(r)
    ensures r.isAuthenticated <==> a.Signin?
    ensures a.Signin? ==> r.user == Some(a.user)
  {
    match a
    case Signin(u) => s.(user := Some(u), isAuthenticated := true)
    case Signout => s.(user := None, isAuthenticated := false)
  }

  /** Applies a run of session actions in order. */
  function ReduceAll(s: State, acts: seq<Action>): State
    decreases |acts|
  {
    if |acts| == 0 then s else ReduceAll(Reduce(s, acts[0]), acts[1..])
  }

  /**
    Every state reachable from the initial one is consistent and keeps its
    top-level profile fields blank.
   */
  lemma {:induction false} ReachableInvariant(s: State, acts: seq<Action>)
    requires Consistent(s) && BlankProfileFields(s)
    ensures Consistent(ReduceAll(s, acts)) && BlankProfileFields(ReduceAll(s, acts))
    decreases |acts|
  {
    if |acts| > 0 {
      ReachableInvariant(Reduce(s, acts[0]), acts[1..]);
    }
  }

  lemma InitialIsConsistent()
    ensures Consistent(Initial) && BlankProfileFields(Initial)
    ensures Initial.user == None && !Initial.isAuthenticated
  {
  }

  /** Signing out twice is signing out once. */
  lemma SignoutIdempotent(s: State)
    ensures Reduce(Reduce(s, Signout), Signout) == Reduce(s, Signout)
  {
  }

  /** Of two successive sign-ins only the last user remains. */
  lemma SigninLastWins(s: State, u1: User, u2: User)
    ensures Reduce(Reduce(s, Signin(u1)), Signin(u2)) == Reduce(s, Signin(u2))
  {
  }
}

=== FILE: signup.dfy ===
/** The signup screen's `handleSignup`: registration with duplicate-email rejection. */
module Signup {
  import opened Wrappers
  import opened Js
  import opened Ui
  import opened Store
  import SessionSlice
  import UsersSlice

  const FillAllFields: string := "Please fill all fields"
  const EmailExists: string := "Email already exists. Please use a different email."
  const SignupSuccessful: string := "Signup successful!"

  /** The record signup builds: only name, email and password are set. */
  function NewUser(name: string, email: string, password: string): UsersSlice.User
  {
    UsersSlice.User(name, email, password, Undefined, Undefined, Undefined)
  }

  function HandleSignup(users: UsersSlice.State, name: string, email: string, password: string): (o: Outcome)
    ensures name == "" || email == "" || password == "" ==> o == ErrorOnly(FillAllFields)
    ensures name != "" && email != "" && password != "" && (exists i :: 0 <= i < |users| && users[i].email == email) ==>
      o == ErrorOnly(EmailExists)
    ensures name != "" && email != "" && password != "" && (forall i :: 0 <= i < |users| ==> users[i].email != email) ==>
      o.actions == [ UsersAction(UsersSlice.AddUser(NewUser(name, email, password))),
                     SessionAction(SessionSlice.Signin(NewUser(name, email, password))) ]
      && o.alert == Some(Alert("Success", SignupSuccessful)) && o.navigate == Some("/login")
  {
    if name == "" || email == "" || password == "" then ErrorOnly(FillAllFields)
    else if exists i :: 0 <= i < |users| && users[i].email == email then ErrorOnly(EmailExists)
    else
      var user := NewUser(name, email, password);
      Outcome(
        Some(Alert("Success", SignupSuccessful)),
        [UsersAction(UsersSlice.AddUser(user)), SessionAction(SessionSlice.Signin(user))],
        Some("/login"))
  }

  /** Store after running a signup attempt against its own user list. */
  function AfterSignup(s: RootState, name: string, email: string, password: string): RootState
  {
    DispatchAll(s, HandleSignup(s.users, name, email, password).actions)
  }

  /** Success appends the new user and signs that same record in. */
  lemma SignupSuccess(s: RootState, name: string, email: string, password: string)
    requires name != "" && email != "" && password != ""
    requires forall i :: 0 <= i < |s.users| ==> s.users[i].email != email
    ensures AfterSignup(s, name, email, password).users == s.users + [NewUser(name, email, password)]
    ensures AfterSignup(s, name, email, password).session.user == Some(NewUser(name, email, password))
    ensures AfterSignup(s, name, email, password).session.isAuthenticated
  {
    var user := NewUser(name, email, password);
    DispatchTwo(s, UsersAction(UsersSlice.AddUser(user)), SessionAction(SessionSlice.Signin(user)));
  }

  /** Every rejected signup leaves the store untouched. */
  lemma SignupRejectedChangesNothing(s: RootState, name: string, email: string, password: string)
    requires name == "" || email == "" || password == "" || exists i :: 0 <= i < |s.users| && s.users[i].email == email
    ensures AfterSignup(s, name, email, password) == s
  {
  }

  /** Whatever the outcome, a list with distinct emails keeps distinct emails. */
  lemma SignupKeepsEmailsDistinct(s: RootState, name: string, email: string, password: string)
    requires UsersSlice.EmailsDistinct(s.users)
    ensures UsersSlice.EmailsDistinct(AfterSignup(s, name, email, password).users)
  {
    if name != "" && email != "" && password != "" && forall i :: 0 <= i < |s.users| ==> s.users[i].email != email {
      SignupSuccess(s, name, email, password);
    } else {
      SignupRejectedChangesNothing(s, name, email, password);
    }
  }

  /** Signing up twice with the same email: the second attempt is refused and the list keeps one entry. */
  lemma SignupTwice(name: string, email: string, password: string)
    requires name != "" && email != "" && password != ""
    ensures var s1 := AfterSignup(Initial, name, email, password);
      |s1.users| == 1
      && HandleSignup(s1.users, name, email, password) == ErrorOnly(EmailExists)
      && AfterSignup(s1, name, email, password).users == s1.users
  {
    SignupSuccess(Initial, name, email, password);
    var s1 := AfterSignup(Initial, name, email, password);
    assert s1.users[0].email == email;
    SignupRejectedChangesNothing(s1, name, email, password);
  }
}

=== FILE: store.dfy ===
/**
  The aggregate store: the four slices side by side, and the root reducer that
  hands each action to every slice. A slice ignores actions it does not own, so
  an action changes its own slice only. Persistence is switched off, so the
  store's reducer is the plain root reducer and its initial state is the tuple
  of the slices' initial states.
 */
module Store {
  import SessionSlice
  import UsersSlice
  import LeaveSummarySlice
  import RecentRequestsSlice

  datatype RootState = RootState(
    session: SessionSlice.State,
    users: UsersSlice.State,
    leaveSummary: LeaveSummarySlice.Summary,
    recentRequests: RecentRequestsSlice.State)

  /** An action, tagged with the slice whose action creator made it. */
  datatype Action =
    | SessionAction(session: SessionSlice.Action)
    | UsersAction(users: UsersSlice.Action)
    | LeaveSummaryAction(leaveSummary: LeaveSummarySlice.Action)
    | RecentRequestsAction(recentRequests: RecentRequestsSlice.Action)

  const Initial: RootState := RootState(
    SessionSlice.Initial, UsersSlice.Initial, LeaveSummarySlice.Default, RecentRequestsSlice.Initial)

  /** `rootReducer`: every slice sees the action; only its owner reacts. */
  function RootReduce(s: RootState, a: Action): (r: RootState)
    ensures !a.SessionAction? ==> r.session == s.session
    ensures !a.UsersAction? ==> r.users == s.users
    ensures !a.LeaveSummaryAction? ==> r.leaveSummary == s.leaveSummary
    ensures !a.RecentRequestsAction? ==> r.recentRequests == s.recentRequests
    ensures a.SessionAction? ==> r.session == SessionSlice.Reduce(s.session, a.session)
    ensures a.UsersAction? ==> r.users == UsersSlice.Reduce(s.users, a.users)
    ensures a.LeaveSummaryAction? ==> r.leaveSummary == LeaveSummarySlice.Reduce(s.leaveSummary, a.leaveSummary)
    ensures a.RecentRequestsAction? ==>
      r.recentRequests == RecentRequestsSlice.Reduce(s.recentRequests, a.recentRequests)
  {
    RootState(
      if a.SessionAction? then SessionSlice.Reduce(s.session, a.session) else s.session,
      if a.UsersAction? then UsersSlice.Reduce(s.users, a.users) else s.users,
      if a.LeaveSummaryAction? then LeaveSummarySlice.Reduce(s.leaveSummary, a.leaveSummary) else s.leaveSummary,
      if a.RecentRequestsAction? then RecentRequestsSlice.Reduce(s.recentRequests, a.recentRequests) else s.recentRequests)
  }

  /**
    Dispatches a run of actions in call order. A slice that no action of the
    run belongs to keeps its value.
   */
  function DispatchAll(s: RootState, acts: seq<Action>): (r: RootState)
    ensures (forall i :: 0 <= i < |acts| ==> !acts[i].SessionAction?) ==> r.session == s.session
    ensures (forall i :: 0 <= i < |acts| ==> !acts[i].UsersAction?) ==> r.users == s.users
    ensures (forall i :: 0 <= i < |acts| ==> !acts[i].LeaveSummaryAction?) ==> r.leaveSummary == s.leaveSummary
    ensures (forall i :: 0 <= i < |acts| ==> !acts[i].RecentRequestsAction?) ==> r.recentRequests == s.recentRequests
    decreases |acts|
  {
    if |acts| == 0 then s else DispatchAll(RootReduce(s, acts[0]), acts[1..])
  }

  lemma DispatchOne(s: RootState, a: Action)
    ensures DispatchAll(s, [a]) == RootReduce(s, a)
  {
    assert [a][1..] == [];
  }

  lemma DispatchTwo(s: RootState, a: Action, b: Action)
    ensures DispatchAll(s, [a, b]) == RootReduce(RootReduce(s, a), b)
  {
    assert [a, b][1..] == [b];
    DispatchOne(RootReduce(s, a), b);
  }

  /** A session that the app can reach: consistent flag, blank top-level profile fields. */
  predicate ReachableSession(s: RootState)
  {
    SessionSlice.Consistent(s.session) && SessionSlice.BlankProfileFields(s.session)
  }

  /** Dispatching from the initial store never breaks the session invariant. */
  lemma {:induction false} DispatchKeepsSessionInvariant(s: RootState, acts: seq<Action>)
    requires ReachableSession(s)
    ensures ReachableSession(DispatchAll(s, acts))
    decreases |acts|
  {
    if |acts| > 0 {
      DispatchKeepsSessionInvariant(RootReduce(s, acts[0]), acts[1..]);
    }
  }

  /** Dispatching `a` and then `b` is dispatching the run `a + b`. */
  lemma {:induction false} DispatchAppend(s: RootState, a: seq<Action>, b: seq<Action>)
    ensures DispatchAll(DispatchAll(s, a), b) == DispatchAll(s, a + b)
    decreases |a|
  {
    if |a| > 0 {
      assert (a + b)[0] == a[0];
      assert (a + b)[1..] == a[1..] + b;
      DispatchAppend(RootReduce(s, a[0]), a[1..], b);
    } else {
      assert a + b == b;
    }
  }

  /** A run of actions none of which belongs to the users slice leaves the user list alone. */
  lemma {:induction false} DispatchPreservesUsers(s: RootState, acts: seq<Action>)
    requires forall i :: 0 <= i < |acts| ==> !acts[i].UsersAction?
    ensures DispatchAll(s, acts).users == s.users
    decreases |acts|
  {
    if |acts| > 0 {
      DispatchPreservesUsers(RootReduce(s, acts[0]), acts[1..]);
    }
  }
}

=== FILE: ui.dfy ===
/**
  What a screen handler does, as a value: the alert it raises, the store
  actions it dispatches (in order) and the route it replaces the current one
  with. Alerts and navigation are outputs, not effects.
 */
module Ui {
  import opened Wrappers
  import Store

  datatype Alert = Alert(title: string, message: string)

  datatype Outcome = Outcome(alert: Option<Alert>, actions: seq<Store.Action>, navigate: Option<string>)

  /** An error alert and nothing else: no dispatch, no navigation. */
  function ErrorOnly(message: string): (o: Outcome)
    ensures o.actions == [] && o.navigate.None?
    ensures o.alert == Some(Alert("Error", message))
  {
    Outcome(Some(Alert("Error", message)), [], None)
  }
}

=== FILE: users_slice.dfy ===
/**
  The users slice: the ordered list of registered accounts. Email is the lookup
  key, but the slice itself never enforces its uniqueness.
 */
module UsersSlice {
  import opened Wrappers
  import opened Js
  import opened Seqs

  /** An account; `avatar` may be missing, null or an opaque image URI. */
  datatype User = User(
    name: string,
    email: string,
    password: string,
    avatar: Slot<string>,
    phone: Slot<string>,
    address: Slot<string>)

  type State = seq<User>

  const Initial: State := []

  datatype Action =
    | SetUsers(users: seq<User>)
    | AddUser(user: User)
    | UpdateUser(user: User)
    | RemoveUser(email: string)

  /** Number of entries registered under `email`. */
  function CountEmail(s: State, email: string): nat
  {
    Count(s, (u: User) => u.email == email)
  }

  /** No two entries share an email. */
  predicate EmailsDistinct(s: State)
  {
    forall i, j :: 0 <= i < j < |s| ==> s[i].email != s[j].email
  }

  /** `addUser`: push onto the end, with no uniqueness check. */
  function Add(s: State, u: User): (r: State)
    ensures |r| == |s| + 1 && r[|s|] == u
    ensures forall i :: 0 <= i < |s| ==> r[i] == s[i]
  {
    s + [u]
  }

  /** `updateUser`: overwrite the first entry with the same email, if there is one. */
  function Update(s: State, u: User): (r: State)
    ensures |r| == |s|
    ensures (forall i :: 0 <= i < |s| ==> s[i].email != u.email) ==> r == s
    ensures forall i :: 0 <= i < |s| && s[i].email == u.email && (forall j :: 0 <= j < i ==> s[j].email != u.email) ==>
      r == s[i := u]
  {
    match FindIndex(s, (x: User) => x.email == u.email)
    case None => s
    case Some(i) => s[i := u]
  }

  /** `removeUser`: keep every entry whose email differs. */
  function Remove(s: State, email: string): (r: State)
    ensures forall x :: x in r ==> x in s && x.email != email
    ensures forall i :: 0 <= i < |s| && s[i].email != email ==> s[i] in r
    ensures |r| + CountEmail(s, email) == |s|
  {
    FilterComplement(s, (u: User) => u.email != email, (u: User) => u.email == email);
    Filter(s, (u: User) => u.email != email)
  }

  /** The slice reducer: `setUsers` replaces the list wholesale; the others act as above. */
  function Reduce(s: State, a: Action): (r: State)
    ensures a.SetUsers? ==> r == a.users
    ensures a.AddUser? ==> |r| == |s| + 1 && r[..|s|] == s && r[|s|] == a.user
    ensures a.UpdateUser? ==>
      |r| == |s| && forall i :: 0 <= i < |s| && s[i].email != a.user.email ==> r[i] == s[i]
    ensures a.UpdateUser? && (forall i :: 0 <= i < |s| ==> s[i].email != a.user.email) ==> r == s
    ensures a.UpdateUser? ==>
      forall i :: 0 <= i < |s| && s[i].email == a.user.email && (forall j :: 0 <= j < i ==> s[j].email != a.user.email) ==>
        r == s[i := a.user]
    ensures a.RemoveUser? ==> |r| + CountEmail(s, a.email) == |s| && forall i :: 0 <= i < |r| ==> r[i].email != a.email
    ensures a.RemoveUser? ==> forall i :: 0 <= i < |s| && s[i].email != a.email ==> s[i] in r
  {
    match a
    case SetUsers(l) => l
    case AddUser(u) => Add(s, u)
    case UpdateUser(u) => Update(s, u)
    case RemoveUser(e) => Remove(s, e)
  }

  /** Adding a user whose email is already present leaves one more entry under that email. */
  lemma AddDuplicateEmail(s: State, u: User)
    ensures CountEmail(Add(s, u), u.email) == CountEmail(s, u.email) + 1
  {
    CountAppendOne(s, u, (x: User) => x.email == u.email);
  }

  /** Update keeps every entry under a different email and the position of the replaced one. */
  lemma UpdateThenRead(s: State, u: User, i: nat)
    requires i < |s| && s[i].email == u.email
    requires EmailsDistinct(s)
    ensures Update(s, u)[i] == u
    ensures forall j :: 0 <= j < |s| && j != i ==> Update(s, u)[j] == s[j]
  {
  }

  /** Removing an email removes all of its entries, and removing it again changes nothing. */
  lemma RemoveIdempotent(s: State, email: string)
    ensures forall i :: 0 <= i < |Remove(s, email)| ==> Remove(s, email)[i].email != email
    ensures Remove(Remove(s, email), email) == Remove(s, email)
  {
    FilterIdempotent(s, (u: User) => u.email != email);
  }

  /**
    On a single entry, removal keeps it exactly when its email differs. With
    `RemoveKeepsOrder` this determines the result on every list: each
    surviving entry is kept once, in its original place in the order.
   */
  lemma RemoveSingleton(x: User, email: string)
    ensures Remove([x], email) == if x.email != email then [x] else []
  {
    assert [x][1..] == [];
  }

  /** Removal keeps the relative order of what remains: it distributes over concatenation. */
  lemma RemoveKeepsOrder(a: State, b: State, email: string)
    ensures Remove(a + b, email) == Remove(a, email) + Remove(b, email)
  {
    FilterAppend(a, b, (u: User) => u.email != email);
  }
}

=== FILE: wrappers.dfy ===
/** Optional values, used wherever the source has `T | null` or a lookup that may miss. */
module Wrappers {

  datatype Option<+T> = None | Some(value: T)
}
